=== FILE: README.md ===
# League of Legends statistics dashboard: data shaping

This project models the client-side data shaping of a React dashboard for League
of Legends match statistics. Every figure comes from an external statistics
service, so the model does not cover the statistics themselves. It covers what
each page does with the decoded responses:

- **Champion table** (`ChampionsTable`): seeds one row per champion of the
  reference class list. It then fans out five per-role requests joined with
  `Promise.all`, and merges each role's rows into a map keyed by champion name.
  Champions the reference list lacks are added. Each role slot holds the
  champion's last metric for that role. The result is searched by name,
  ignoring case.
- **Matches page** (`Matches`): folds the match list into a per-champion tally
  of games and wins. From the tally it builds a top-15 win-rate chart. It also
  builds a histogram of gold at 14 minutes in 500-gold buckets, sorted by
  bucket, plus the summary cards.
- **Overview page** (`Home`): three requests joined with `Promise.all`. From
  them it builds a top-10 win-rate chart from validated rows, the first ten of
  the KDA ranking, and two correlation cards.
- **Statistics page** (`Stats`): the early-game correlation chart, the per-role
  KDA chart and four cards, all from one correlation object.
- **Champion statistics** (`Champions`): the query parameter it sends, the
  name search, the top-15 win-rate chart, the gold/XP chart and the 50-row
  table slice.
- **Rankings** (`Rankings`): the query parameters it sends, the first twenty
  of the KDA ranking, and the win-rate chart of its first fifteen entries.
- **Theme provider** (`Theme`): the initial theme read from `localStorage`, the
  effect that publishes it, and the toggle.

Shared modules model the JavaScript these pages rely on:

- `Js`: truthiness, `Number` coercion and `||` defaults.
- `Api`: request outcomes, `Promise.all`, the client functions `api.js`
  defines, and query parameters.
- `OrderedMaps`: a plain object used as a dictionary, enumerated in insertion
  order.
- `Sorting`: a stable sort, with `slice(0, n)` after it.
- `Text`: `toLowerCase`, `toUpperCase` and `includes`.
- `Format`: `safePercent` and the clamp.

Every response is an input, given as a `Result`: a decoded body, or the error
the request raised.

## Model

| member | source | states |
|---|---|---|
| `Js.Truthy` | src/pages/Matches.jsx:38 | JavaScript truthiness: `false`, `0`, `NaN`, `""`, `null` and `undefined` are falsy; `Matches.TallySpec` counts a win exactly for a truthy `win` |
| `Js.ToNumber` | src/pages/Home.jsx:36 | `Number(v)`, with `null` as 0, and `undefined`, plain objects and arrays as `NaN` (array coercion not modelled); `Home.BarOf` and `Stats.PercentSpec` state the values built from it |
| `Api.All` | src/pages/ChampionsTable.jsx:35-37 | `Promise.all` succeeds exactly when every request does, and then yields every value in request order |
| `Api.OptionalParam` | src/pages/Rankings.jsx:20 | an optional parameter is sent exactly when its value is non-empty, and then carries that value under its key |
| `Api.LookupConcat` | src/pages/Rankings.jsx:16-20 | reading a parameter from two concatenated parameter lists finds the first list's value when it has one, else the second's |
| `Seqs.FilterConcat` | src/pages/Champions.jsx:29-31 | filtering distributes over concatenation, so the kept elements stay in source order |
| `Seqs.FilterContents` | src/pages/ChampionsTable.jsx:90-93 | an element is kept exactly when it is in the input and satisfies the predicate; kept multiplicities equal the input's |
| `OrderedMaps.GetPut` | src/pages/Matches.jsx:33-40 | after `acc[k] = v`, reading `k` gives `v` and every other key keeps its value |
| `OrderedMaps.KeysPut` | src/pages/ChampionsTable.jsx:44-54 | writing keeps the insertion order of keys and appends a new key last |
| `OrderedMaps.PutDistinct` | src/pages/ChampionsTable.jsx:27-30 | writing never lists a key twice |
| `OrderedMaps.SumValuesPut` | src/pages/Matches.jsx:57-62 | a sum over `Object.values` after a write loses the old value's share and gains the new one's |
| `OrderedMaps.InGet` | src/pages/ChampionsTable.jsx:68 | with distinct keys, every entry is what reading its key returns |
| `Sorting.SortDesc` | src/pages/Matches.jsx:48 | the descending sort is a permutation of its input, ordered by the key |
| `Sorting.SortDescStable` | src/pages/Champions.jsx:34 | the sort is stable: elements with equal keys keep their relative order |
| `Sorting.SortAscSum` | src/pages/Matches.jsx:69 | the ascending sort keeps the sum of any measure over the elements |
| `Sorting.Top` | src/pages/Matches.jsx:48-49 | sort-then-slice keeps `min(n, length)` input elements in descending key order, and no dropped element has a higher key than a kept one, counting a dropped copy of a repeated element as dropped |
| `Sorting.TopStable` | src/pages/Champions.jsx:33-35 | among elements with equal keys, the kept ones are a prefix of them in input order |
| `Text.IncludesSpec` | src/pages/ChampionsTable.jsx:92 | `s.includes(t)` holds exactly when `t` occurs at some position of `s` |
| `Text.MatchesTermIgnoresCase` | src/pages/Champions.jsx:29-31 | the name search gives the same answer whatever the case of the name or of the term |
| `Text.UpperKeepsEmptiness` | src/pages/Stats.jsx:57 | upper-casing gives the empty string exactly for the empty string |
| `Format.SafePercent` | src/pages/Stats.jsx:37-41 | a non-finite number is shown as 0.0, and a finite one as itself |
| `Format.Clamp` | src/pages/Home.jsx:44 | the result lies in [0, 100], and equals the input when the input does |
| `ChampionsTable.ClassOf` | src/pages/ChampionsTable.jsx:18 | the class is the reference class when one is given and non-empty, otherwise `'Desconhecida'`; it is never empty |
| `ChampionsTable.SeedList` | src/pages/ChampionsTable.jsx:16-24 | one row per reference champion, in reference order, with its class and all five role slots null |
| `ChampionsTable.FromListEntries` | src/pages/ChampionsTable.jsx:27-30 | with distinct names, the seed map holds each row under its own name, in list order |
| `ChampionsTable.SeedSpec` | src/pages/ChampionsTable.jsx:16-30 | the seed map lists the reference champions in order, its values are the seed rows, and every slot is null |
| `ChampionsTable.LastMetricSpec` | src/pages/ChampionsTable.jsx:56-60 | a champion's metric from one role response exists exactly when the response mentions it, and is that of its last row there |
| `ChampionsTable.MergeRowsGet` | src/pages/ChampionsTable.jsx:40-61 | after merging one role's rows, a mentioned champion has its existing or newly seeded row with that role's slot set to its last metric; others are untouched |
| `ChampionsTable.MergeRowsSlot` | src/pages/ChampionsTable.jsx:56-60 | merging one role's rows changes only that role's slot, and only for mentioned champions |
| `ChampionsTable.MergeRowsKeeps` | src/pages/ChampionsTable.jsx:44-54 | merging keeps every earlier key in its place, keeps keys distinct, and gives every row its own name and reference class |
| `ChampionsTable.MergeFromKeeps` | src/pages/ChampionsTable.jsx:40-62 | merging all role responses keeps the map coherent and keeps earlier keys first |
| `ChampionsTable.MergeFromSlot` | src/pages/ChampionsTable.jsx:40-61 | after merging array responses, a champion's slot for each role is its last metric in that role's response, or its earlier slot when that response does not mention it |
| `ChampionsTable.MergeFromHas` | src/pages/ChampionsTable.jsx:44-54 | after merging array responses, a champion has a row exactly when it had one or some response mentions it |
| `ChampionsTable.NotListStopsMerge` | src/pages/ChampionsTable.jsx:40-41 | a non-array response throws inside the inner `try`: roles before it stay merged, and it and later roles contribute nothing |
| `ChampionsTable.Fallback` | src/pages/ChampionsTable.jsx:72-81 | the outer fallback: one row per reference champion, in reference order, with its class and no data |
| `ChampionsTable.FailedRequestShowsSeed` | src/pages/ChampionsTable.jsx:34-37 | when any role request fails, the page shows exactly the reference champions with no data, the same list as the outer fallback |
| `ChampionsTable.LoadShape` | src/pages/ChampionsTable.jsx:14-68 | whatever the responses, the reference champions come first in reference order, no champion appears twice, and each row carries its champion's class |
| `ChampionsTable.LoadedSlots` | src/pages/ChampionsTable.jsx:35-61 | when all five requests return arrays, a champion has a row exactly when it is a reference champion or mentioned, and each slot is its last metric for that role |
| `ChampionsTable.LoadRowsAreEntries` | src/pages/ChampionsTable.jsx:68 | each listed row is the one the map holds under its champion's name |
| `ChampionsTable.FromList` | src/pages/ChampionsTable.jsx:27-30 | each row written under its champion's name in list order; `ChampionsTable.FromListEntries` states that with distinct names the map holds exactly the list, and `OrderedMaps.PutDistinct` that no name is listed twice |
| `ChampionsTable.Seed` | src/pages/ChampionsTable.jsx:26-30 | the seeded map; `ChampionsTable.SeedSpec` states that it lists each reference champion once, in reference order, with every slot null |
| `ChampionsTable.ApplyStat` | src/pages/ChampionsTable.jsx:42-60 | one row of a role response; `ChampionsTable.MergeRowsGet` states that its champion gets an existing or fresh row with that role's slot set to the row's metric |
| `ChampionsTable.MergeRows` | src/pages/ChampionsTable.jsx:41-61 | one role response merged in array order; `ChampionsTable.MergeRowsGet`, `MergeRowsSlot` and `MergeRowsKeeps` state its effect on each champion and on the key order |
| `ChampionsTable.MergeFrom` | src/pages/ChampionsTable.jsx:40-62 | all role responses merged in role order, stopping at the first non-array; `ChampionsTable.MergeFromHas`, `MergeFromSlot` and `NotListStopsMerge` state the result |
| `ChampionsTable.Load` | src/pages/ChampionsTable.jsx:14-68 | the list the page shows; `ChampionsTable.LoadShape`, `LoadedSlots` and `FailedRequestShowsSeed` state its order, its slots and the failure case |
| `ChampionsTable.Search` | src/pages/ChampionsTable.jsx:90-93 | a row is shown exactly when its lower-cased name includes the lower-cased term, as often as the table holds it; the empty term shows every row |
| `ChampionsTable.SearchOrder` | src/pages/ChampionsTable.jsx:90-93 | searching a table split in two gives the two parts' results one after the other, so the shown rows keep table order |
| `Matches.Fetched` | src/pages/Matches.jsx:21-24 | the match list becomes the response on success and is left as it was when the request fails |
| `Matches.Params` | src/pages/Matches.jsx:16-19 | the request always ends with `limit=100` |
| `Matches.CountMatchGet` | src/pages/Matches.jsx:34-38 | one step of the fold changes only the match's champion: one more game, and one more win when `win` is truthy, starting from zero when absent |
| `Matches.ParamsSpec` | src/pages/Matches.jsx:16-19 | `champion` and `role` are sent exactly when their filters are non-empty, and `limit` is always 100 |
| `Matches.TallySpec` | src/pages/Matches.jsx:33-40 | each champion's tally counts its matches and, of those, the ones whose `win` is truthy; a champion with no match has no entry |
| `Matches.WinsAtMostGames` | src/pages/Matches.jsx:37-38 | a champion's wins never exceed its games |
| `Matches.TallyKeys` | src/pages/Matches.jsx:34-36 | a champion has a tally exactly when some match names it |
| `Matches.TallyDistinct` | src/pages/Matches.jsx:33-40 | no champion is tallied twice |
| `Matches.TallySums` | src/pages/Matches.jsx:33-40 | the totals sum to the number of matches, and the wins to the number of matches with a truthy `win` |
| `Matches.TallyBounds` | src/pages/Matches.jsx:33-40 | every entry has between 0 and its total wins, and at least one game |
| `Matches.Bars` | src/pages/Matches.jsx:42-47 | one bar per tally entry, in entry order, each carrying that entry's champion and game total |
| `Matches.BarsSpec` | src/pages/Matches.jsx:42-47 | each bar's games are its champion's games (at least 1), and its rate is wins over games times 100 |
| `Matches.Top15` | src/pages/Matches.jsx:48-49 | the chart keeps `min(15, n)` bars in descending rate, drawn from the bars, and no dropped bar has a higher rate than a kept one |
| `Matches.WinRateDataDistinct` | src/pages/Matches.jsx:42-49 | no champion has two bars in the chart, because the tally lists each champion once and the sort and slice repeat no bar |
| `Matches.WinRateDataBars` | src/pages/Matches.jsx:42-49 | the chart has `min(15, champions)` bars for pairwise distinct champions, each with its champion's games and win percentage, in [0, 100] |
| `Matches.RateBounds` | src/pages/Matches.jsx:45 | a win rate of a tally with games is a percentage in [0, 100] |
| `Matches.Bucket` | src/pages/Matches.jsx:54 | the bucket is the multiple of 500 at or below the gold, within 500 of it |
| `Matches.HasGold` | src/pages/Matches.jsx:52 | gold counts only when present and non-zero, the truthiness test of the filter; `Matches.Ranges` keeps one bucket per such match |
| `Matches.Ranges` | src/pages/Matches.jsx:51-56 | one bucket per match with truthy gold |
| `Matches.CountRanges` | src/pages/Matches.jsx:57-62 | the bucket fold; `Matches.CountRangesSpec`, `CountRangesDistinct` and `CountRangesSum` state its counts, its distinct keys and its total |
| `Matches.CountRangesSpec` | src/pages/Matches.jsx:57-62 | each bucket's count is how often it occurs; a bucket that never occurs has no entry |
| `Matches.CountRangesSum` | src/pages/Matches.jsx:57-62 | the counts sum to the number of bucketed matches |
| `Matches.GoldDistributionSpec` | src/pages/Matches.jsx:51-62 | a bucket's count is the number of matches whose gold lies in it, every key is a multiple of 500, and the counts sum to the matches with truthy gold |
| `Matches.GoldDataSpec` | src/pages/Matches.jsx:64-69 | the chart holds the histogram's bins, strictly increasing by bucket, with counts summing to the matches with truthy gold |
| `Matches.Bins` | src/pages/Matches.jsx:64-68 | one bin per histogram entry, in entry order, with that entry's bound and count |
| `Matches.BinsIncreasing` | src/pages/Matches.jsx:69 | sorting the bins of a histogram by bound gives strictly increasing bounds, since no bound is listed twice |
| `Matches.CountMatch` | src/pages/Matches.jsx:34-38 | one step of the fold; `Matches.CountMatchGet` states what it changes |
| `Matches.WinRateByChampion` | src/pages/Matches.jsx:33-40 | the per-champion tally; `Matches.TallySpec`, `TallyKeys`, `TallyDistinct` and `TallySums` state its counts and keys |
| `Matches.WinRateData` | src/pages/Matches.jsx:42-49 | the win-rate chart; `Matches.WinRateDataBars` and `WinRateDataDistinct` state its size, contents and distinct champions |
| `Matches.GoldDistribution` | src/pages/Matches.jsx:51-62 | the gold histogram; `Matches.GoldDistributionSpec` states each bucket's count |
| `Matches.GoldData` | src/pages/Matches.jsx:64-69 | the gold chart; `Matches.GoldDataSpec` states its bins and their order |
| `Matches.SummaryWins` | src/pages/Matches.jsx:120 | the win card never exceeds the match count |
| `Matches.SummaryWinPercent` | src/pages/Matches.jsx:126-128 | the win percentage is 0 with no matches, otherwise wins over matches times 100, in [0, 100] |
| `Matches.SummaryAgreesWithTallies` | src/pages/Matches.jsx:115-120 | the summary cards agree with the per-champion tallies: same total, same wins |
| `Home.IsValid` | src/pages/Home.jsx:34-38 | the filter's test: a present element with a truthy champion whose `Number(win_rate)` is finite and in [0, 1]; `Home.Chosen` keeps exactly such elements |
| `Home.Chosen` | src/pages/Home.jsx:33-40 | `min(10, valid)` valid response elements drawn without repetition from the valid ones, in descending rate, with no dropped valid element, including a dropped copy of a repeated one, rated above a kept one |
| `Home.ChosenStable` | src/pages/Home.jsx:39-40 | valid elements with equal rates keep their response order among the chosen ones |
| `Home.BarOf` | src/pages/Home.jsx:42-48 | for a valid element the bar is its champion and its rate times 100: the zero default and the clamp change nothing |
| `Home.BarsOf` | src/pages/Home.jsx:41-49 | one bar per chosen element, in order, with its champion and its rate times 100 |
| `Home.TopWinRate` | src/pages/Home.jsx:41-48 | each bar is the chosen element's champion and its rate times 100; the clamp never alters it |
| `Home.TopWinRateSpec` | src/pages/Home.jsx:33-49 | at most ten bars, non-increasing, with values in [0, 100] and names of valid response elements |
| `Home.Load` | src/pages/Home.jsx:16-60 | any failed request resets all three states; otherwise the chart and ranking hold at most ten entries, with chart values in [0, 100] |
| `Home.LoadSucceeded` | src/pages/Home.jsx:28-29 | when all three succeed, the ranking is the first `min(10, n)` entries in order and the chart is built from the win-rate response; a non-array reads as empty |
| `Home.LoadAsWritten` | src/pages/Home.jsx:17-23 | as written, the page always ends in the reset state |
| `Home.AsObject` | src/pages/Home.jsx:55 | the correlation state holds the object exactly when the response is one, and `null` otherwise |
| `Home.CorrCard` | src/pages/Home.jsx:83-85 | a coefficient shows as its percentage when it is non-null and finite, otherwise as 0.0 |
| `Home.GoldCorr` | src/pages/Home.jsx:81-86 | the gold card shows the early-game gold coefficient as a percentage, or 0.0 when it is missing or not finite |
| `Home.XpCorr` | src/pages/Home.jsx:88-93 | the XP card shows the early-game XP coefficient as a percentage, or 0.0 when it is missing or not finite |
| `Stats.Load` | src/pages/Stats.jsx:16-23 | a failed request leaves `null`; a decoded object is held as is |
| `Stats.LoadAsWritten` | src/pages/Stats.jsx:18 | as written, the page always holds `null` |
| `Stats.CorrelationData` | src/pages/Stats.jsx:44-53 | no bars without the early-game block; otherwise exactly two, gold then XP |
| `Stats.Percent` | src/pages/Stats.jsx:47 | `safePercent(x * 100)`; `Stats.PercentSpec` states that it is the coefficient times 100 when `Number` of it is finite, and 0.0 otherwise, including for `null` |
| `Stats.RoleLabel` | src/pages/Stats.jsx:57 | the role label; `Stats.RoleLabelSpec` states its value |
| `Stats.Card` | src/pages/Stats.jsx:63-73 | one card's value, `'0.0'` for a nullish coefficient; `Stats.CardsMatchChart` states that it equals the chart's value |
| `Stats.GoldCard` | src/pages/Stats.jsx:63-65 | the gold card; `Stats.CardsMatchChart` and `Stats.HomeAgrees` state that it equals the gold chart bar and the overview's gold card |
| `Stats.XpCard` | src/pages/Stats.jsx:67-69 | the XP card; `Stats.CardsMatchChart` and `Stats.HomeAgrees` state that it equals the XP chart bar and the overview's XP card |
| `Stats.RoleLabelSpec` | src/pages/Stats.jsx:57 | the role label is the upper-cased role, or `'-'` when it is absent or empty |
| `Stats.RoleBarOf` | src/pages/Stats.jsx:56-60 | a role bar carries its label and percentage, and its games when truthy, else 0 |
| `Stats.RoleData` | src/pages/Stats.jsx:56-60 | one bar per `kdaByRole` element, in order; none when the block is missing |
| `Stats.KdaGlobalCard` | src/pages/Stats.jsx:71-73 | the global KDA card is 0.0 without the block, else the coefficient's percentage |
| `Stats.TotalGames` | src/pages/Stats.jsx:75 | the games card is the global games count when the block is present and the count truthy, and 0 in every other case |
| `Stats.CardsMatchChart` | src/pages/Stats.jsx:44-69 | each card shows exactly its chart bar's value; the `!= null` guard changes nothing |
| `Stats.HomeAgrees` | src/pages/Stats.jsx:63-69 | the statistics page and the overview show the same gold and XP percentages for the same correlation object |
| `Champions.Params` | src/pages/Champions.jsx:16 | `role` is sent exactly when a role is selected, and no other parameter is sent |
| `Champions.Fetched` | src/pages/Champions.jsx:17-20 | the rows become the response on success and are left as they were when the request fails |
| `Champions.FilteredStats` | src/pages/Champions.jsx:29-31 | a row is kept exactly when its name matches the term, with its multiplicity; the empty term keeps all |
| `Champions.FilteredStatsOrder` | src/pages/Champions.jsx:29-31 | filtering keeps the response order |
| `Champions.TopWinRate` | src/pages/Champions.jsx:33-35 | `min(15, n)` filtered rows by descending win rate, with no dropped row, including a dropped copy of a repeated one, rated above a kept one |
| `Champions.TopWinRateStable` | src/pages/Champions.jsx:34 | rows with equal win rates keep their filtered order in the chart |
| `Champions.AvgGoldXp` | src/pages/Champions.jsx:37-42 | one point per filtered row, with its gold, XP and win rate times 100 |
| `Champions.TableRows` | src/pages/Champions.jsx:165 | the table shows the first `min(50, n)` filtered rows in order |
| `Rankings.Params` | src/pages/Rankings.jsx:16-20 | `minGames` and `limit=50` always come first, followed by `role` exactly when one is selected and by nothing else |
| `Rankings.ParamsSpec` | src/pages/Rankings.jsx:16-20 | `minGames` and `limit=50` are always sent, `role` exactly when one is selected |
| `Rankings.Fetched` | src/pages/Rankings.jsx:22-25 | the ranking becomes the response on success and is left as it was when the request fails |
| `Rankings.TopKda` | src/pages/Rankings.jsx:34 | the first `min(20, n)` ranking entries, in order |
| `Rankings.WinRateData` | src/pages/Rankings.jsx:35-39 | one point per entry among the first fifteen, with the champion, win rate times 100 and KDA |
| `Rankings.MinGamesInput` | src/pages/Rankings.jsx:78 | the minimum-games input falls back to 20 for an unparsable or zero value and is never 0 |
| `Theme.InitialTheme` | src/contexts/ThemeContext.jsx:14-24 | the initial theme is a stored `'light'` or `'dark'`, and `'dark'` otherwise or without a `window` |
| `Theme.ToggleTheme` | src/contexts/ThemeContext.jsx:33-35 | the toggle yields a theme name, different from a valid previous one |
| `Theme.ToggleNParity` | src/contexts/ThemeContext.jsx:34 | after `n` toggles the theme is the start exactly when `n` is even |
| `Theme.ModeAbstraction` | src/contexts/ThemeContext.jsx:33-35 | the theme names are exactly the two modes' names, and the string toggle is the mode toggle |
| `Theme.Publish` | src/contexts/ThemeContext.jsx:26-31 | the effect sets `data-theme`, and stores the theme when there is a `window` |
| `Theme.Mount` | src/contexts/ThemeContext.jsx:14-31 | mounting: the initial theme, then the effect; `Theme.RunInvariant` and `Theme.ReloadRestoresTheme` state what it shows and stores |
| `Theme.Click` | src/contexts/ThemeContext.jsx:26-35 | one toggle, then the effect for the new theme; `Theme.RunInvariant` states that the document and storage follow it |
| `Theme.Run` | src/contexts/ThemeContext.jsx:14-35 | mounting, then `n` toggles; `Theme.RunInvariant` and `Theme.ToggleNParity` state the theme after them |
| `Theme.RunInvariant` | src/contexts/ThemeContext.jsx:14-35 | along any run the theme is a theme name, the document and storage show it, and it is the mounted theme toggled `n` times |
| `Theme.ReloadRestoresTheme` | src/contexts/ThemeContext.jsx:14-31 | with a `window`, reloading after any run mounts the same theme again |

## Left out

- Network, `fetch`, JSON decoding and `URLSearchParams`: each response is an input `Result`, and parameters are modelled as key/value lists.
- React state, hooks, loading flags, rendering, charts, navigation, and `window.open` on a table row.
- `toFixed(1)` and `toLocaleString` rounding: every displayed number is modelled as the real it renders.
- Number parsing of strings: a string value carries the number `Number` gives it.
- `Js.ToNumber`: `Number` of an array is not modelled. `Number([])` is 0 and `Number([x])` is `Number(x)`, but an array reads as an object here, giving `NaN`.
- Case mapping: it is ASCII-only. Other characters are kept unchanged.
- Negative gold is not modelled; gold is a natural number or absent.
- Object keys that clash with `Object.prototype` names (`"constructor"`, say) are not modelled: every lookup reads an own property.
- Which rejection `Promise.all` reports when several requests fail: no page reads the error.
- A non-array body stored by the Matches, Champions or Rankings page crashes the next render's `.reduce`, `.filter` or `.slice`. The model only takes array responses there.
- Malformed rows are not modelled; every row is a well-formed record:
  - a `null` element of a role response throws at `stat.champion` (src/pages/ChampionsTable.jsx:42) partway through `forEach`, keeping the rows already merged;
  - a row without `champion` is stored under the key `"undefined"` (src/pages/ChampionsTable.jsx:44-53, src/pages/Matches.jsx:34);
  - a `kdaByRole` that is not an array throws at `.map` (src/pages/Stats.jsx:56), and its `null` elements and non-string `role` values are not modelled either.
- The Home page's `typeof advCorr === 'object'` also accepts arrays; that case reads as no object.
- `src/data/championClasses` is not part of this model: the reference class list is an input.
- `useTheme`'s error outside a provider, the navbar, the app shell, and the loading screen.
- Race conditions between overlapping fetch cycles after a filter change: each cycle is modelled on its own.
- `ChampionsTable.MergeRowsGet`: the code creates a row, then assigns the role slot; the model does both in one write, with the same result.
- The five role requests are joined with `Promise.all`, so one failure drops all API data. Any truthy `win`, including the string `"false"`, counts as a win.

## Findings

| source | as written | input that shows it | evidently intended | confidence | as-written member | corrected member |
|---|---|---|---|---|---|---|
| src/pages/Home.jsx:19 | `api.getChampionWinRate` and `api.getAdvancedCorrelations` are called, but `src/services/api.js` defines neither, so building the request array throws a `TypeError` inside the `try` | any server answer, e.g. three successful responses | the three requests are made and shaped into the charts and cards | not executed | `Home.LoadAsWritten` | `Home.LoadSucceeded` |
| src/pages/Stats.jsx:18 | `api.getAdvancedCorrelations` is not defined by `src/services/api.js`, so the call throws and the page holds `null` | any server answer, e.g. a successful correlation object | the correlation object is held and shown | not executed | `Stats.LoadAsWritten` | `Stats.Load` |

=== FILE: api.dfy ===
/**
 * The dashboard's side of the statistics gateway: what a request yields (a
 * decoded body or an error), the shapes of the rows the pages read, query
 * parameters, and which client functions `src/services/api.js` defines. The
 * network, `fetch`, JSON decoding and URL building are not modelled; every
 * response is an input.
 */
module Api {
  import opened Js

  /** Network failure, non-2xx status, or a call the client object cannot make. */
  datatype FetchError = Transport | HttpStatus(code: int) | TypeError

  /** The settled outcome of one awaited request. */
  datatype Result<T> = Ok(value: T) | Err(error: FetchError)

  /** A decoded body that should be an array: it is one, or it is some other JSON value. */
  datatype Payload<T> = List(items: seq<T>) | NotList

  /** `Array.isArray(x) ? x : []`. */
  function AsArray<T>(p: Payload<T>): seq<T> {
    match p
    case List(items) => items
    case NotList => []
  }

  /**
   * `await Promise.all(requests)`: every value, in request order, when all
   * succeed; otherwise a rejection. (Which rejection comes first depends on
   * timing; the model reports the first by position, and no page reads it.)
   */
  function All<T>(rs: seq<Result<T>>): (r: Result<seq<T>>)
    ensures r.Ok? <==> forall i :: 0 <= i < |rs| ==> rs[i].Ok?
    ensures r.Ok? ==> |r.value| == |rs| && forall i :: 0 <= i < |rs| ==> r.value[i] == rs[i].value
    decreases |rs|
  {
    if |rs| == 0 then Ok([])
    else match rs[0]
      case Err(e) => Err(e)
      case Ok(v) =>
        match All(rs[1..])
        case Err(e) => Err(e)
        case Ok(vs) => Ok([v] + vs)
  }

  /**
   * `try { set(await request) } catch (e) { console.error(e) }`: the state takes
   * the response on success and keeps its previous value on failure.
   */
  function Settle<T>(previous: T, r: Result<T>): T {
    match r
    case Ok(v) => v
    case Err(_) => previous
  }

  /** The client functions the pages call. */
  datatype Endpoint =
    | GetMatches | GetMatch
    | GetChampionStats | GetChampionKdaRanking | GetChampionMatches
    | GetChampionBestMatches | GetChampionWorstMatches
    | GetCorrelations | GetKdaVsWin
    | GetChampionWinRate | GetAdvancedCorrelations

  /** The functions the `api` object actually defines; `getChampionWinRate` and `getAdvancedCorrelations` are absent. */
  predicate Defined(e: Endpoint) {
    !(e == GetChampionWinRate || e == GetAdvancedCorrelations)
  }

  /**
   * `api.f(...)` as written: calling a property the object does not define
   * throws a `TypeError` before any request is made.
   */
  function Call<T>(e: Endpoint, response: Result<T>): Result<T> {
    if Defined(e) then response else Err(TypeError)
  }

  /** A query parameter as handed to `URLSearchParams`. */
  datatype ParamValue = IntParam(n: int) | StrParam(s: string)
  datatype Param = Param(key: string, value: ParamValue)

  /** `if (value) params[key] = value` for a string filter: sent only when non-empty. */
  function OptionalParam(key: string, value: string): (r: seq<Param>)
    ensures (exists p :: p in r && p.key == key) <==> value != ""
    ensures forall p :: p in r ==> p == Param(key, StrParam(value))
  {
    if value != "" then [Param(key, StrParam(value))] else []
  }

  /** The parameter sent under `key`, if any (the first, as `URLSearchParams` reads it). */
  function Lookup(ps: seq<Param>, key: string): Option<ParamValue>
    decreases |ps|
  {
    if |ps| == 0 then None
    else if ps[0].key == key then Some(ps[0].value)
    else Lookup(ps[1..], key)
  }

  /** An optional string filter is read back exactly when it was set. */
  lemma LookupOptional(key: string, value: string, k: string)
    ensures Lookup(OptionalParam(key, value), k) == if k == key && value != "" then Some(StrParam(value)) else None
  {
    if value != "" {
      assert OptionalParam(key, value)[1..] == [];
    }
  }

  /** Reading a key from two parameter lists in a row: the first list wins. */
  lemma {:induction false} LookupConcat(a: seq<Param>, b: seq<Param>, key: string)
    ensures Lookup(a + b, key) == if Lookup(a, key).Some? then Lookup(a, key) else Lookup(b, key)
    decreases |a|
  {
    if |a| == 0 {
      assert a + b == b;
    } else {
      assert (a + b)[1..] == a[1..] + b;
      LookupConcat(a[1..], b, key);
    }
  }

  /** A row of `/champions/stats`. */
  datatype ChampionStat = ChampionStat(
    champion: string, role: string, games: int, wins: int,
    winRate: real, meanGold14: real, meanXp14: real)

  /** A row of `/champions/kda-ranking`. */
  datatype KdaEntry = KdaEntry(
    champion: string, role: string, games: int, wins: int,
    avgKda: real, winRate: real)

  /** A row of `/champions/win-rate`; the home page checks both fields defensively. */
  datatype WinRateItem = WinRateItem(champion: JsValue, winRate: JsValue)

  /** A row of `/matches`; `gold14` is absent (`null`) or a non-negative whole number. */
  datatype Match = Match(
    matchId: string, champion: string, role: string,
    win: JsValue, gold14: Option<nat>)

  /** `/stats/advanced-correlations`: the early-game block. */
  datatype EarlyGlobal = EarlyGlobal(corrGold14Win: JsValue, corrXp14Win: JsValue)

  /** One element of `kdaByRole`; `role` is absent or a string. */
  datatype RoleCorrelation = RoleCorrelation(role: Option<string>, corrKdaWin: JsValue, games: JsValue)

  datatype KdaGlobal = KdaGlobal(corrKdaWin: JsValue, games: JsValue)

  /** The correlation object; each block may be missing. */
  datatype AdvancedCorrelations = AdvancedCorrelations(
    earlyGlobal: Option<EarlyGlobal>,
    kdaByRole: Option<seq<RoleCorrelation>>,
    kdaGlobal: Option<KdaGlobal>)

  /** The decoded correlation body: an object, or anything else (`null`, a number, ...). */
  datatype CorrPayload = CorrObject(corr: AdvancedCorrelations) | NotObject
}

=== FILE: champions.dfy ===
/**
 * The champion statistics page: one `/champions/stats` request, optionally for
 * one role, narrowed by a search box, shown as a top-15 win-rate chart, a
 * gold/XP scatter and a table of the first 50 rows.
 */
module Champions {
  import opened Js
  import opened Seqs
  import opened Sorting
  import opened Api
  import opened Text

  /** Line 16: `{ role: selectedRole }` when a role is selected, `{}` otherwise. */
  function Params(selectedRole: string): (r: seq<Param>)
    ensures Lookup(r, "role") == if selectedRole != "" then Some(StrParam(selectedRole)) else None
    ensures forall p :: p in r ==> p.key == "role"
  {
    OptionalParam("role", selectedRole)
  }

  /** Lines 17-18: the rows after the request; a failed request leaves them as they were. */
  function Fetched(previous: seq<ChampionStat>, response: Result<seq<ChampionStat>>): (r: seq<ChampionStat>)
    ensures response.Err? ==> r == previous
    ensures response.Ok? ==> r == response.value
  {
    Settle(previous, response)
  }

  function NameMatches(term: string): ChampionStat -> bool {
    (x: ChampionStat) => MatchesTerm(x.champion, term)
  }

  /**
   * Lines 29-31: the rows whose champion name contains the term, ignoring case,
   * each as often as in the response and in response order; an empty term keeps
   * every row.
   */
  function FilteredStats(stats: seq<ChampionStat>, term: string): (r: seq<ChampionStat>)
    ensures forall x :: x in r <==> x in stats && MatchesTerm(x.champion, term)
    ensures forall x :: multiset(r)[x] == if MatchesTerm(x.champion, term) then multiset(stats)[x] else 0
    ensures term == "" ==> r == stats
  {
    FilterFacts(stats, term);
    Filter(stats, NameMatches(term))
  }

  lemma FilterFacts(stats: seq<ChampionStat>, term: string)
    ensures forall x :: x in Filter(stats, NameMatches(term)) <==> x in stats && MatchesTerm(x.champion, term)
    ensures forall x ::
      multiset(Filter(stats, NameMatches(term)))[x] == if MatchesTerm(x.champion, term) then multiset(stats)[x] else 0
    ensures term == "" ==> Filter(stats, NameMatches(term)) == stats
  {
    FilterContents(stats, NameMatches(term));
    if term == "" {
      forall x | x in stats ensures NameMatches(term)(x) {
        EmptyTermMatches(x.champion);
      }
      FilterKeepsAll(stats, NameMatches(term));
    }
  }

  /** Filtering keeps response order: filtering two halves and joining is filtering the whole. */
  lemma FilteredStatsOrder(a: seq<ChampionStat>, b: seq<ChampionStat>, term: string)
    ensures FilteredStats(a + b, term) == FilteredStats(a, term) + FilteredStats(b, term)
  {
    FilterConcat(a, b, NameMatches(term));
  }

  function ByWinRate(s: ChampionStat): real {
    s.winRate
  }

  /**
   * Lines 33-35: a sorted copy of the filtered rows, highest win rate first, the
   * first 15 kept; no filtered row left out has a higher win rate than one kept.
   */
  function TopWinRate(filtered: seq<ChampionStat>): (r: seq<ChampionStat>)
    ensures |r| == Min(15, |filtered|)
    ensures SortedDesc(r, ByWinRate)
    ensures multiset(r) <= multiset(filtered)
    ensures forall x, e :: x in filtered && x !in r && e in r ==> x.winRate <= e.winRate
    ensures forall x, e :: multiset(r)[x] < multiset(filtered)[x] && e in r ==> x.winRate <= e.winRate
  {
    var r := Top(filtered, ByWinRate, 15);
    assert forall x, e :: multiset(r)[x] < multiset(filtered)[x] && e in r ==> x.winRate <= e.winRate by {
      forall x, e | multiset(r)[x] < multiset(filtered)[x] && e in r ensures x.winRate <= e.winRate {
        assert ByWinRate(x) <= ByWinRate(e);
      }
    }
    assert forall x, e :: x in filtered && x !in r && e in r ==> x.winRate <= e.winRate by {
      forall x, e | x in filtered && x !in r && e in r ensures x.winRate <= e.winRate {
        assert ByWinRate(x) <= ByWinRate(e);
      }
    }
    r
  }

  /**
   * Rows with equal win rates appear in the chart in their filtered order (the
   * sort is stable): for each rate, the chart's rows are the first ones of the
   * filtered rows with that rate.
   */
  lemma TopWinRateStable(filtered: seq<ChampionStat>, k: real)
    ensures Filter(TopWinRate(filtered), KeyIs(ByWinRate, k)) <= Filter(filtered, KeyIs(ByWinRate, k))
  {
    TopStable(filtered, ByWinRate, 15, k);
  }

  /** A point of the gold/XP scatter. */
  datatype GoldXp = GoldXp(champion: string, gold: real, xp: real, winRate: real)

  /** Lines 37-42: one point per filtered row, in the same order. */
  function AvgGoldXp(filtered: seq<ChampionStat>): (r: seq<GoldXp>)
    ensures |r| == |filtered|
    ensures forall i :: 0 <= i < |r| ==>
      && r[i].champion == filtered[i].champion
      && r[i].gold == filtered[i].meanGold14 && r[i].xp == filtered[i].meanXp14
      && r[i].winRate == filtered[i].winRate * 100.0
    decreases |filtered|
  {
    if |filtered| == 0 then []
    else
      var s := filtered[0];
      [GoldXp(s.champion, s.meanGold14, s.meanXp14, s.winRate * 100.0)] + AvgGoldXp(filtered[1..])
  }

  /** Line 165: the table shows the first `min(50, n)` filtered rows, in order. */
  function TableRows(filtered: seq<ChampionStat>): (r: seq<ChampionStat>)
    ensures |r| == Min(50, |filtered|)
    ensures forall i :: 0 <= i < |r| ==> r[i] == filtered[i]
  {
    Prefix(filtered, 50)
  }
}

=== FILE: champions_table.dfy ===
/**
 * The full champion table page: every champion of the reference class list,
 * enriched with per-role win-rate data from five `/champions/stats?role=...`
 * requests, then narrowed by a search box.
 *
 * The page keeps a plain object keyed by champion name; it is modelled as an
 * `OrderedMap`, and the displayed list is its `Object.values`.
 */
module ChampionsTable {
  import opened Js
  import opened Seqs
  import opened OrderedMaps
  import opened Api
  import opened Text

  datatype Role = Top | Jungle | Mid | Adc | Support

  /** The order of the five role requests; response `i` fills slot `Roles[i]`. */
  const Roles: seq<Role> := [Top, Jungle, Mid, Adc, Support]

  /** The class shown for a champion the reference list does not classify. */
  const Unknown: string := "Desconhecida"

  /** What a filled role slot holds: three fields copied from one stats row. */
  datatype Metric = Metric(winRate: real, games: int, wins: int)

  /** One table row: a champion, its class, and one slot per role (`None` is `null`, shown as "-"). */
  datatype ChampionRow = ChampionRow(
    champion: string, cls: string,
    top: Option<Metric>, jungle: Option<Metric>, mid: Option<Metric>,
    adc: Option<Metric>, support: Option<Metric>)
  {
    function Slot(role: Role): Option<Metric> {
      match role
      case Top => top
      case Jungle => jungle
      case Mid => mid
      case Adc => adc
      case Support => support
    }

    /** `row[role] = m`. */
    function WithSlot(role: Role, m: Option<Metric>): (r: ChampionRow)
      ensures r.champion == champion && r.cls == cls
      ensures r.Slot(role) == m
      ensures forall q :: q != role ==> r.Slot(q) == Slot(q)
    {
      match role
      case Top => this.(top := m)
      case Jungle => this.(jungle := m)
      case Mid => this.(mid := m)
      case Adc => this.(adc := m)
      case Support => this.(support := m)
    }

    predicate NoData() {
      forall q :: Slot(q).None?
    }
  }

  /** The reference data `championClasses`: champion name to class, in key order. */
  type Classes = OrderedMap<string, string>

  /** The page's `championMap`. */
  type Table = OrderedMap<string, ChampionRow>

  /** `championClasses[name] || 'Desconhecida'`. */
  function ClassOf(classes: Classes, name: string): (r: string)
    ensures r != ""
    ensures Get(classes, name).Some? && Get(classes, name).value != "" ==> r == Get(classes, name).value
    ensures !(Get(classes, name).Some? && Get(classes, name).value != "") ==> r == Unknown
  {
    match Get(classes, name)
    case Some(s) => if s != "" then s else Unknown
    case None => Unknown
  }

  /** A row with every role slot `null`. */
  function NewRow(classes: Classes, name: string): (r: ChampionRow)
    ensures r.champion == name && r.cls == ClassOf(classes, name) && r.NoData()
  {
    ChampionRow(name, ClassOf(classes, name), None, None, None, None, None)
  }

  function MetricOf(stat: ChampionStat): Metric {
    Metric(stat.winRate, stat.games, stat.wins)
  }

  /**
   * What every entry of the map satisfies: it is keyed by its own champion name
   * and carries that champion's reference class; and no name is listed twice.
   */
  ghost predicate Coherent(t: Table, classes: Classes) {
    && Distinct(t)
    && forall e :: e in t ==> e.1.champion == e.0 && e.1.cls == ClassOf(classes, e.0)
  }

  /** The slot a champion shows for a role: its value, or `null` when the champion has no row. */
  function SlotOf(t: Table, c: string, role: Role): Option<Metric> {
    match Get(t, c)
    case Some(row) => row.Slot(role)
    case None => None
  }

  /**
   * Lines 16-24 (and again 72-80): one row per reference champion, in key order,
   * with its class and no role data.
   */
  function SeedList(classes: Classes): (r: seq<ChampionRow>)
    ensures |r| == |classes|
    ensures forall i :: 0 <= i < |r| ==> r[i] == NewRow(classes, classes[i].0)
  {
    seq(|classes|, i requires 0 <= i < |classes| => NewRow(classes, classes[i].0))
  }

  /** Lines 27-30: `rows.forEach(r => { championMap[r.champion] = { ...r } })`. */
  function FromList(rows: seq<ChampionRow>): Table
    decreases |rows|
  {
    if |rows| == 0 then []
    else
      var last := rows[|rows| - 1];
      Put(FromList(rows[..|rows| - 1]), last.champion, last)
  }

  ghost predicate DistinctChampions(rows: seq<ChampionRow>) {
    forall i, j :: 0 <= i < j < |rows| ==> rows[i].champion != rows[j].champion
  }

  /** Building the map from rows with distinct names lists each row under its name, in order. */
  lemma {:induction false} FromListEntries(rows: seq<ChampionRow>)
    requires DistinctChampions(rows)
    ensures |FromList(rows)| == |rows|
    ensures forall i :: 0 <= i < |rows| ==> FromList(rows)[i] == (rows[i].champion, rows[i])
    decreases |rows|
  {
    if |rows| != 0 {
      var n := |rows| - 1;
      var init := rows[..n];
      assert DistinctChampions(init);
      FromListEntries(init);
      var t := FromList(init);
      HasKeys(t, rows[n].champion);
      assert rows[n].champion !in Keys(t) by {
        assert forall i :: 0 <= i < n ==> Keys(t)[i] == rows[i].champion;
      }
      PutNew(t, rows[n].champion, rows[n]);
    }
  }

  /** Lines 16-30: the map seeded from the reference list. */
  function Seed(classes: Classes): Table {
    FromList(SeedList(classes))
  }

  /**
   * The seeded map lists every reference champion once, in reference order,
   * with its class and every slot `null`; `Object.values` of it is the seed list.
   */
  lemma SeedSpec(classes: Classes)
    requires Distinct(classes)
    ensures Coherent(Seed(classes), classes)
    ensures Values(Seed(classes)) == SeedList(classes)
    ensures Keys(Seed(classes)) == Keys(classes)
    ensures forall c, q :: SlotOf(Seed(classes), c, q).None?
  {
    var rows := SeedList(classes);
    FromListEntries(rows);
    var t := Seed(classes);
    assert forall e :: e in t ==> e.1 in rows && e.1.champion == e.0;
    forall c, q ensures SlotOf(t, c, q).None? {
      if Has(t, c) {
        GetIn(t, c);
      }
    }
  }

  /** The row a champion's data is written into: its existing row, or a fresh one (lines 44-54). */
  function BaseRow(t: Table, classes: Classes, name: string): ChampionRow {
    match Get(t, name)
    case Some(row) => row
    case None => NewRow(classes, name)
  }

  /**
   * Lines 42-60 for one stats row of the response for `role`: create the
   * champion's row if the map lacks it, then overwrite that one slot with the
   * row's metric. Creating the row and then filling its slot is one write of the
   * filled row under the same key.
   */
  function ApplyStat(t: Table, classes: Classes, role: Role, stat: ChampionStat): Table {
    var name := stat.champion;
    Put(t, name, BaseRow(t, classes, name).WithSlot(role, Some(MetricOf(stat))))
  }

  /** The metric of the last row for champion `c`, if any: the value that survives overwriting. */
  function LastMetric(rows: seq<ChampionStat>, c: string): (r: Option<Metric>)
    decreases |rows|
  {
    if |rows| == 0 then None
    else if rows[|rows| - 1].champion == c then Some(MetricOf(rows[|rows| - 1]))
    else LastMetric(rows[..|rows| - 1], c)
  }

  /** `LastMetric` finds a metric exactly when some row names the champion, and it is that of the last such row. */
  lemma {:induction false} LastMetricSpec(rows: seq<ChampionStat>, c: string)
    ensures LastMetric(rows, c).Some? <==> exists i :: 0 <= i < |rows| && rows[i].champion == c
    ensures LastMetric(rows, c).Some? ==> exists i ::
      && 0 <= i < |rows| && rows[i].champion == c
      && LastMetric(rows, c).value == MetricOf(rows[i])
      && forall j :: i < j < |rows| ==> rows[j].champion != c
    decreases |rows|
  {
    if |rows| != 0 {
      var n := |rows| - 1;
      var pre := rows[..n];
      if rows[n].champion == c {
        assert LastMetric(rows, c).value == MetricOf(rows[n]);
      } else {
        LastMetricSpec(pre, c);
        assert LastMetric(rows, c) == LastMetric(pre, c);
        if exists i :: 0 <= i < |rows| && rows[i].champion == c {
          var i :| 0 <= i < |rows| && rows[i].champion == c;
          assert pre[i].champion == c;
        }
        if LastMetric(pre, c).Some? {
          var i :| && 0 <= i < |pre| && pre[i].champion == c
                   && LastMetric(pre, c).value == MetricOf(pre[i])
                   && forall j :: i < j < |pre| ==> pre[j].champion != c;
          assert pre[i] == rows[i];
          assert forall j :: i < j < |rows| ==> rows[j].champion != c by {
            forall j | i < j < |rows| ensures rows[j].champion != c {
              if j < n {
                assert pre[j] == rows[j];
              }
            }
          }
        }
      }
    }
  }

  /** Line 41: `roleStats.forEach(...)` for one response, rows applied in array order. */
  function MergeRows(t: Table, classes: Classes, role: Role, rows: seq<ChampionStat>): Table
    decreases |rows|
  {
    if |rows| == 0 then t
    else ApplyStat(MergeRows(t, classes, role, rows[..|rows| - 1]), classes, role, rows[|rows| - 1])
  }

  /**
   * One response leaves a champion it does not mention alone; a champion it
   * mentions ends with its previous row (or a fresh one) whose slot `role` holds
   * the metric of its last row in the response.
   */
  lemma {:induction false} MergeRowsGet(t: Table, classes: Classes, role: Role, rows: seq<ChampionStat>, c: string)
    ensures Get(MergeRows(t, classes, role, rows), c) ==
      if LastMetric(rows, c).None? then Get(t, c)
      else Some(BaseRow(t, classes, c).WithSlot(role, LastMetric(rows, c)))
    decreases |rows|
  {
    if |rows| != 0 {
      var n := |rows| - 1;
      var prev := MergeRows(t, classes, role, rows[..n]);
      MergeRowsGet(t, classes, role, rows[..n], c);
      GetPut(prev, rows[n].champion, BaseRow(prev, classes, rows[n].champion).WithSlot(role, Some(MetricOf(rows[n]))), c);
    }
  }

  /** One response changes only slot `role`, of the champions it mentions. */
  lemma MergeRowsSlot(t: Table, classes: Classes, role: Role, rows: seq<ChampionStat>, c: string, q: Role)
    ensures SlotOf(MergeRows(t, classes, role, rows), c, q) ==
      if q == role && LastMetric(rows, c).Some? then LastMetric(rows, c) else SlotOf(t, c, q)
  {
    MergeRowsGet(t, classes, role, rows, c);
  }

  /** Writing a response keeps the map coherent and only appends names. */
  lemma {:induction false} MergeRowsKeeps(t: Table, classes: Classes, role: Role, rows: seq<ChampionStat>)
    requires Coherent(t, classes)
    ensures Coherent(MergeRows(t, classes, role, rows), classes)
    ensures Keys(t) <= Keys(MergeRows(t, classes, role, rows))
    decreases |rows|
  {
    if |rows| != 0 {
      var n := |rows| - 1;
      var prev := MergeRows(t, classes, role, rows[..n]);
      MergeRowsKeeps(t, classes, role, rows[..n]);
      var name := rows[n].champion;
      var row := BaseRow(prev, classes, name).WithSlot(role, Some(MetricOf(rows[n])));
      PutDistinct(prev, name, row);
      KeysPut(prev, name, row);
      if Has(prev, name) {
        GetIn(prev, name);
      }
      forall e | e in Put(prev, name, row)
        ensures e.1.champion == e.0 && e.1.cls == ClassOf(classes, e.0)
      {
        InPut(prev, name, row, e);
      }
    }
  }

  /** Every response from position `i` on is an array. */
  ghost predicate AllLists(payloads: seq<Payload<ChampionStat>>, i: nat) {
    forall j :: i <= j < |payloads| ==> payloads[j].List?
  }

  /**
   * Line 40: `allStats.forEach((roleStats, roleIndex) => ...)` from response `i`
   * on. A response that is not an array makes `roleStats.forEach` throw: the rows
   * merged so far stay in the map and the remaining responses are skipped.
   */
  function MergeFrom(t: Table, classes: Classes, payloads: seq<Payload<ChampionStat>>, i: nat): Table
    requires |payloads| <= |Roles| && i <= |payloads|
    decreases |payloads| - i
  {
    if i == |payloads| then t
    else match payloads[i]
      case NotList => t
      case List(rows) => MergeFrom(MergeRows(t, classes, Roles[i], rows), classes, payloads, i + 1)
  }

  /** Merging the responses keeps the map coherent and only appends names. */
  lemma {:induction false} MergeFromKeeps(t: Table, classes: Classes, payloads: seq<Payload<ChampionStat>>, i: nat)
    requires |payloads| <= |Roles| && i <= |payloads|
    requires Coherent(t, classes)
    ensures Coherent(MergeFrom(t, classes, payloads, i), classes)
    ensures Keys(t) <= Keys(MergeFrom(t, classes, payloads, i))
    decreases |payloads| - i
  {
    if i < |payloads| && payloads[i].List? {
      var next := MergeRows(t, classes, Roles[i], payloads[i].items);
      MergeRowsKeeps(t, classes, Roles[i], payloads[i].items);
      MergeFromKeeps(next, classes, payloads, i + 1);
    }
  }

  /** Some response from position `i` on mentions champion `c`. */
  ghost predicate MentionedFrom(payloads: seq<Payload<ChampionStat>>, i: nat, c: string) {
    exists j :: i <= j < |payloads| && LastMetric(AsArray(payloads[j]), c).Some?
  }

  /**
   * With every remaining response an array, a champion has a row exactly when it
   * had one or some response mentions it.
   */
  lemma {:induction false} MergeFromHas(t: Table, classes: Classes, payloads: seq<Payload<ChampionStat>>, i: nat, c: string)
    requires |payloads| <= |Roles| && i <= |payloads|
    requires AllLists(payloads, i)
    ensures Has(MergeFrom(t, classes, payloads, i), c) <==> Has(t, c) || MentionedFrom(payloads, i, c)
    decreases |payloads| - i
  {
    if i < |payloads| {
      var rows := payloads[i].items;
      MergeFromHas(MergeRows(t, classes, Roles[i], rows), classes, payloads, i + 1, c);
      MergeRowsGet(t, classes, Roles[i], rows, c);
      if MentionedFrom(payloads, i, c) && !MentionedFrom(payloads, i + 1, c) {
        assert LastMetric(AsArray(payloads[i]), c).Some?;
      }
    }
  }

  /**
   * With every remaining response an array, a champion's slot for role `j` is the
   * last metric response `j` gives it, or what it was before when response `j`
   * does not mention it (or was already merged).
   */
  lemma {:induction false} MergeFromSlot(t: Table, classes: Classes, payloads: seq<Payload<ChampionStat>>, i: nat, c: string, j: nat)
    requires |payloads| <= |Roles| && i <= |payloads| && j < |Roles|
    requires AllLists(payloads, i)
    ensures SlotOf(MergeFrom(t, classes, payloads, i), c, Roles[j]) ==
      if i <= j < |payloads| && LastMetric(AsArray(payloads[j]), c).Some?
      then LastMetric(AsArray(payloads[j]), c) else SlotOf(t, c, Roles[j])
    decreases |payloads| - i
  {
    if i < |payloads| {
      var rows := payloads[i].items;
      MergeFromSlot(MergeRows(t, classes, Roles[i], rows), classes, payloads, i + 1, c, j);
      MergeRowsSlot(t, classes, Roles[i], rows, c, Roles[j]);
      assert Roles[i] == Roles[j] <==> i == j;
    }
  }

  /** A response that is not an array ends the merge: later responses contribute nothing. */
  lemma {:induction false} NotListStopsMerge(t: Table, classes: Classes, payloads: seq<Payload<ChampionStat>>, i: nat, k: nat)
    requires |payloads| <= |Roles| && i <= k < |payloads| && payloads[k].NotList?
    ensures MergeFrom(t, classes, payloads, i) == MergeFrom(t, classes, payloads[..k], i)
    decreases k - i
  {
    var pre := payloads[..k];
    if i < k {
      assert pre[i] == payloads[i];
      if payloads[i].List? {
        NotListStopsMerge(MergeRows(t, classes, Roles[i], payloads[i].items), classes, payloads, i + 1, k);
      }
    }
  }

  /**
   * Lines 14-68: the list the page shows. If any of the five requests fails,
   * `Promise.all` rejects, nothing from the API is merged, and the seed is shown.
   */
  function Load(classes: Classes, responses: seq<Result<Payload<ChampionStat>>>): seq<ChampionRow>
    requires |responses| == |Roles|
  {
    match All(responses)
    case Err(_) => Values(Seed(classes))
    case Ok(payloads) => Values(MergeFrom(Seed(classes), classes, payloads, 0))
  }

  /** Lines 72-81: the list shown when anything outside the inner `try` throws. */
  function Fallback(classes: Classes): (r: seq<ChampionRow>)
    ensures |r| == |classes|
    ensures forall i :: 0 <= i < |r| ==>
      r[i].champion == classes[i].0 && r[i].cls == ClassOf(classes, classes[i].0) && r[i].NoData()
  {
    SeedList(classes)
  }

  /** A failed role request shows exactly the reference champions with no data, the same list as the outer fallback. */
  lemma FailedRequestShowsSeed(classes: Classes, responses: seq<Result<Payload<ChampionStat>>>, k: nat)
    requires Distinct(classes) && |responses| == |Roles|
    requires k < |responses| && responses[k].Err?
    ensures Load(classes, responses) == Fallback(classes)
    ensures forall row :: row in Load(classes, responses) ==> row.NoData()
  {
    SeedSpec(classes);
  }

  /** The table the page builds, before `Object.values`. */
  function Built(classes: Classes, responses: seq<Result<Payload<ChampionStat>>>): Table
    requires |responses| == |Roles|
  {
    match All(responses)
    case Err(_) => Seed(classes)
    case Ok(payloads) => MergeFrom(Seed(classes), classes, payloads, 0)
  }

  /**
   * Whatever the responses: the reference champions come first, in reference
   * order; no champion is listed twice; every row carries its champion's class.
   */
  lemma LoadShape(classes: Classes, responses: seq<Result<Payload<ChampionStat>>>)
    requires Distinct(classes) && |responses| == |Roles|
    ensures var r := Load(classes, responses);
      && |r| >= |classes|
      && (forall i :: 0 <= i < |classes| ==> r[i].champion == classes[i].0)
      && DistinctChampions(r)
      && forall row :: row in r ==> row.cls == ClassOf(classes, row.champion)
  {
    SeedSpec(classes);
    var t := Built(classes, responses);
    if All(responses).Ok? {
      MergeFromKeeps(Seed(classes), classes, All(responses).value, 0);
    }
    assert Load(classes, responses) == Values(t);
    assert Keys(classes) <= Keys(t);
    assert forall i :: 0 <= i < |t| ==> t[i] in t;
    assert forall i :: 0 <= i < |classes| ==> Keys(classes)[i] == Keys(t)[i];
  }

  /**
   * When all five requests succeed with arrays: a champion has a row exactly when
   * it is in the reference list or some response mentions it, and its slot for
   * role `j` is the metric of its last row in response `j`, or `null` when that
   * response has none.
   */
  lemma LoadedSlots(classes: Classes, responses: seq<Result<Payload<ChampionStat>>>, c: string)
    requires Distinct(classes) && |responses| == |Roles|
    requires forall i :: 0 <= i < |responses| ==> responses[i].Ok? && responses[i].value.List?
    ensures Has(Built(classes, responses), c) <==>
      Has(classes, c) || exists j :: 0 <= j < |Roles| && LastMetric(responses[j].value.items, c).Some?
    ensures forall j :: 0 <= j < |Roles| ==>
      SlotOf(Built(classes, responses), c, Roles[j]) == LastMetric(responses[j].value.items, c)
  {
    SeedSpec(classes);
    var payloads := All(responses).value;
    assert AllLists(payloads, 0);
    assert forall j :: 0 <= j < |Roles| ==> AsArray(payloads[j]) == responses[j].value.items;
    HasKeys(Seed(classes), c);
    HasKeys(classes, c);
    forall j | 0 <= j < |Roles|
      ensures SlotOf(Built(classes, responses), c, Roles[j]) == LastMetric(responses[j].value.items, c)
    {
      MergeFromSlot(Seed(classes), classes, payloads, 0, c, j);
    }
    MergeFromHas(Seed(classes), classes, payloads, 0, c);
  }

  /** Each displayed row is the row the map holds under its champion's name. */
  lemma LoadRowsAreEntries(classes: Classes, responses: seq<Result<Payload<ChampionStat>>>, row: ChampionRow)
    requires Distinct(classes) && |responses| == |Roles|
    requires row in Load(classes, responses)
    ensures Get(Built(classes, responses), row.champion) == Some(row)
  {
    SeedSpec(classes);
    var t := Built(classes, responses);
    if All(responses).Ok? {
      MergeFromKeeps(Seed(classes), classes, All(responses).value, 0);
    }
    var i :| 0 <= i < |t| && Values(t)[i] == row;
    assert t[i] in t;
    InGet(t, row.champion, row);
  }

  /** The search predicate of line 92 for one term. */
  function NameMatches(term: string): ChampionRow -> bool {
    (x: ChampionRow) => MatchesTerm(x.champion, term)
  }

  /** Lines 90-93: the rows whose name contains the search term, ignoring case, in table order. */
  function Search(rows: seq<ChampionRow>, term: string): (r: seq<ChampionRow>)
    ensures forall x :: x in r <==> x in rows && MatchesTerm(x.champion, term)
    ensures forall x :: multiset(r)[x] == if MatchesTerm(x.champion, term) then multiset(rows)[x] else 0
    ensures term == "" ==> r == rows
  {
    SearchFacts(rows, term);
    Filter(rows, NameMatches(term))
  }

  lemma SearchFacts(rows: seq<ChampionRow>, term: string)
    ensures forall x :: x in Filter(rows, NameMatches(term)) <==> x in rows && MatchesTerm(x.champion, term)
    ensures forall x ::
      multiset(Filter(rows, NameMatches(term)))[x] == if MatchesTerm(x.champion, term) then multiset(rows)[x] else 0
    ensures term == "" ==> Filter(rows, NameMatches(term)) == rows
  {
    FilterContents(rows, NameMatches(term));
    if term == "" {
      forall x | x in rows ensures NameMatches(term)(x) {
        EmptyTermMatches(x.champion);
      }
      FilterKeepsAll(rows, NameMatches(term));
    }
  }

  /** Searching a table split in two searches each part, so the shown rows keep the table order. */
  lemma SearchOrder(a: seq<ChampionRow>, b: seq<ChampionRow>, term: string)
    ensures Search(a + b, term) == Search(a, term) + Search(b, term)
  {
    FilterConcat(a, b, NameMatches(term));
  }
}

=== FILE: format.dfy ===
/**
 * How the pages turn numbers into the text they show. `x.toFixed(1)` is
 * modelled by the real it renders (the one-decimal rounding is not modelled),
 * so the text `'0.0'` is the value 0.
 */
module Format {
  import opened Js

  /**
   * `safePercent(value)` of Home.jsx and Stats.jsx: `Number(value)` rendered
   * with one decimal, or `'0.0'` when it is NaN or infinite. Every caller passes
   * a number, on which `Number` is the identity.
   */
  function SafePercent(n: Num): (r: real)
    ensures !n.Finite? ==> r == 0.0
    ensures n.Finite? ==> r == n.r
  {
    match n
    case Finite(x) => x
    case _ => 0.0
  }

  /** `Math.max(0, Math.min(100, x))`. */
  function Clamp(x: real): (r: real)
    ensures 0.0 <= r <= 100.0
    ensures 0.0 <= x <= 100.0 ==> r == x
  {
    if x > 100.0 then 100.0 else if x < 0.0 then 0.0 else x
  }
}

=== FILE: home.dfy ===
/**
 * The dashboard overview: three requests joined with `Promise.all` (overall
 * win rate per champion, the KDA ranking, the advanced correlations), shaped
 * into a top-10 win-rate chart, a top-10 KDA chart and two correlation cards.
 */
module Home {
  import opened Js
  import opened Seqs
  import opened Sorting
  import opened Api
  import opened Format

  /** An element of the win-rate response: `None` is a falsy element (`null`, `undefined`, ...). */
  type Item = Option<WinRateItem>

  /**
   * Lines 34-38: kept when the element and its champion are truthy and
   * `Number(win_rate)` is a finite number in [0, 1].
   */
  predicate IsValid(item: Item) {
    && item.Some?
    && Truthy(item.value.champion)
    && ToNumber(item.value.winRate).Finite?
    && 0.0 <= ToNumber(item.value.winRate).r <= 1.0
  }

  /** `Number(item.win_rate)` as the sort key; the sort only sees valid elements, whose rate is finite. */
  function RateOf(item: Item): real {
    if item.Some? && ToNumber(item.value.winRate).Finite? then ToNumber(item.value.winRate).r else 0.0
  }

  /**
   * Lines 33-40: the valid elements, highest rate first, the first ten kept; no
   * valid element left out has a higher rate than one kept.
   */
  function Chosen(items: seq<Item>): (r: seq<Item>)
    ensures |r| == Min(10, |Filter(items, IsValid)|)
    ensures forall x :: x in r ==> x in items && IsValid(x)
    ensures multiset(r) <= multiset(Filter(items, IsValid))
    ensures SortedDesc(r, RateOf)
    ensures forall x, e :: x in items && IsValid(x) && x !in r && e in r ==> RateOf(x) <= RateOf(e)
    ensures forall x, e :: multiset(r)[x] < multiset(Filter(items, IsValid))[x] && e in r ==> RateOf(x) <= RateOf(e)
  {
    var valid := Filter(items, IsValid);
    var r := Top(valid, RateOf, 10);
    ChosenFromValid(items, valid, r);
    r
  }

  /** What is drawn from the valid elements is valid, and a valid element left out is left out of them. */
  lemma ChosenFromValid(items: seq<Item>, valid: seq<Item>, r: seq<Item>)
    requires valid == Filter(items, IsValid) && multiset(r) <= multiset(valid)
    ensures forall x :: x in r ==> x in items && IsValid(x)
    ensures forall x :: x in items && IsValid(x) ==> x in valid
  {
    FilterContents(items, IsValid);
    forall x | x in r ensures x in valid {
      assert x in multiset(r);
    }
  }

  /**
   * Line 39 sorts stably: valid elements with equal rates keep their response
   * order, so for each rate the chosen ones are the first valid ones with it.
   */
  lemma ChosenStable(items: seq<Item>, k: real)
    ensures Filter(Chosen(items), KeyIs(RateOf, k)) <= Filter(Filter(items, IsValid), KeyIs(RateOf, k))
  {
    TopStable(Filter(items, IsValid), RateOf, 10, k);
  }

  /** A bar of the win-rate chart. */
  datatype Bar = Bar(name: JsValue, value: real)

  /**
   * Lines 41-48 for one valid element: `Number(win_rate) || 0` is the rate
   * itself (a finite rate that is falsy is 0 already), times 100, clamped to
   * [0, 100].
   */
  function BarOf(item: Item): (r: Bar)
    requires IsValid(item)
    ensures r == Bar(item.value.champion, RateOf(item) * 100.0)
  {
    Bar(item.value.champion, Clamp(ToNumber(item.value.winRate).r * 100.0))
  }

  /** Lines 41-49: one bar per valid element, in order. */
  function BarsOf(chosen: seq<Item>): (r: seq<Bar>)
    requires forall i :: 0 <= i < |chosen| ==> chosen[i].Some? && IsValid(chosen[i])
    ensures |r| == |chosen|
    ensures forall i :: 0 <= i < |chosen| ==> r[i] == Bar(chosen[i].value.champion, RateOf(chosen[i]) * 100.0)
  {
    seq(|chosen|, i requires 0 <= i < |chosen| => BarOf(chosen[i]))
  }

  /**
   * Lines 33-49: `topWinRate`, one bar per chosen element in order; since a valid
   * rate lies in [0, 1], the clamp never changes the percentage.
   */
  function TopWinRate(items: seq<Item>): (r: seq<Bar>)
    ensures |r| == |Chosen(items)|
    ensures forall i :: 0 <= i < |r| ==>
      r[i] == Bar(Chosen(items)[i].value.champion, RateOf(Chosen(items)[i]) * 100.0)
  {
    var chosen := Chosen(items);
    assert forall i :: 0 <= i < |chosen| ==> IsValid(chosen[i]) by {
      forall i | 0 <= i < |chosen| ensures IsValid(chosen[i]) {
        assert chosen[i] in chosen;
      }
    }
    BarsOf(chosen)
  }

  /**
   * The chart: at most ten bars, named by truthy champions of the response,
   * with percentages in [0, 100], non-increasing.
   */
  lemma TopWinRateSpec(items: seq<Item>)
    ensures |TopWinRate(items)| == Min(10, |Filter(items, IsValid)|) <= 10
    ensures forall b :: b in TopWinRate(items) ==>
      && Truthy(b.name) && 0.0 <= b.value <= 100.0
      && exists x :: x in items && IsValid(x) && x.value.champion == b.name
    ensures forall i, j :: 0 <= i < j < |TopWinRate(items)| ==> TopWinRate(items)[i].value >= TopWinRate(items)[j].value
  {
    var c := Chosen(items);
    var r := TopWinRate(items);
    forall b | b in r
      ensures && Truthy(b.name) && 0.0 <= b.value <= 100.0
              && exists x :: x in items && IsValid(x) && x.value.champion == b.name
    {
      var i :| 0 <= i < |r| && r[i] == b;
      assert c[i] in c;
    }
    forall i, j | 0 <= i < j < |r| ensures r[i].value >= r[j].value {
      assert RateOf(c[i]) >= RateOf(c[j]);
    }
  }

  /** What the page holds after loading: the chart bars, the ranking, and the correlation object. */
  datatype View = View(championStats: seq<Bar>, kdaRanking: seq<KdaEntry>, advancedCorr: Option<AdvancedCorrelations>)

  /** Lines 58-60: the state after an error. */
  const Empty: View := View([], [], None)

  /** Line 55: `advCorr && typeof advCorr === 'object' ? advCorr : null`. */
  function AsObject(p: CorrPayload): (r: Option<AdvancedCorrelations>)
    ensures r.Some? <==> p.CorrObject?
    ensures p.CorrObject? ==> r.value == p.corr
  {
    match p
    case CorrObject(c) => Some(c)
    case NotObject => None
  }

  /**
   * Lines 16-60 given the three responses: if any request fails, `Promise.all`
   * rejects and all three states are reset; otherwise non-arrays read as empty
   * lists (lines 28-29), the chart is `topWinRate` and the ranking its first ten.
   */
  function Load(winRate: Result<Payload<Item>>, ranking: Result<Payload<KdaEntry>>, corr: Result<CorrPayload>): (r: View)
    ensures winRate.Err? || ranking.Err? || corr.Err? ==> r == Empty
    ensures |r.championStats| <= 10 && |r.kdaRanking| <= 10
    ensures forall b :: b in r.championStats ==> 0.0 <= b.value <= 100.0
  {
    if winRate.Err? || ranking.Err? || corr.Err? then Empty
    else
      TopWinRateSpec(AsArray(winRate.value));
      View(TopWinRate(AsArray(winRate.value)), Prefix(AsArray(ranking.value), 10), AsObject(corr.value))
  }

  /** When all three requests succeed, the ranking shown is the first `min(10, n)` entries in API order, and the chart is `topWinRate` of the response. */
  lemma LoadSucceeded(winRate: Result<Payload<Item>>, ranking: Result<Payload<KdaEntry>>, corr: Result<CorrPayload>)
    requires winRate.Ok? && ranking.Ok? && corr.Ok?
    ensures var r := Load(winRate, ranking, corr);
      && |r.kdaRanking| == Min(10, |AsArray(ranking.value)|)
      && (forall i :: 0 <= i < |r.kdaRanking| ==> r.kdaRanking[i] == AsArray(ranking.value)[i])
      && r.championStats == TopWinRate(AsArray(winRate.value))
      && (ranking.value.NotList? ==> r.kdaRanking == [])
      && (winRate.value.NotList? ==> r.championStats == [])
  {
    if winRate.value.NotList? {
      assert Filter<Item>([], IsValid) == [];
    }
  }

  /**
   * Lines 17-23 as written: `getChampionWinRate` and `getAdvancedCorrelations`
   * are not functions of the `api` object, so building the request array throws
   * a `TypeError` inside the `try`, whatever the server would answer.
   */
  function LoadAsWritten(winRate: Result<Payload<Item>>, ranking: Result<Payload<KdaEntry>>, corr: Result<CorrPayload>): (r: View)
    ensures r == Empty
  {
    Load(Call(GetChampionWinRate, winRate), Call(GetChampionKdaRanking, ranking), Call(GetAdvancedCorrelations, corr))
  }

  /**
   * Lines 83-85 (and 90-92) for one coefficient: `'0.0'` when it is null,
   * undefined or not numeric, otherwise `safePercent(Number(value) * 100)`.
   */
  function CorrCard(v: JsValue): (r: real)
    ensures Shows(v) ==> r == ToNumber(v).r * 100.0
    ensures !Shows(v) ==> r == 0.0
  {
    if IsNullish(v) || ToNumber(v).NaN? then 0.0 else SafePercent(Times100(ToNumber(v)))
  }

  /** The coefficient a card shows: finite, not null, and then as a percentage. */
  ghost predicate Shows(v: JsValue) {
    !IsNullish(v) && ToNumber(v).Finite?
  }

  /** Lines 81-86: `goldCorr`, `'0.0'` unless the early-game block carries a finite, non-null coefficient. */
  function GoldCorr(adv: Option<AdvancedCorrelations>): (r: real)
    ensures adv.Some? && adv.value.earlyGlobal.Some? && Shows(adv.value.earlyGlobal.value.corrGold14Win)
      ==> r == ToNumber(adv.value.earlyGlobal.value.corrGold14Win).r * 100.0
    ensures !(adv.Some? && adv.value.earlyGlobal.Some? && Shows(adv.value.earlyGlobal.value.corrGold14Win))
      ==> r == 0.0
  {
    if adv.None? || adv.value.earlyGlobal.None? then 0.0 else CorrCard(adv.value.earlyGlobal.value.corrGold14Win)
  }

  /** Lines 88-93: `xpCorr`, by the same rule. */
  function XpCorr(adv: Option<AdvancedCorrelations>): (r: real)
    ensures adv.Some? && adv.value.earlyGlobal.Some? && Shows(adv.value.earlyGlobal.value.corrXp14Win)
      ==> r == ToNumber(adv.value.earlyGlobal.value.corrXp14Win).r * 100.0
    ensures !(adv.Some? && adv.value.earlyGlobal.Some? && Shows(adv.value.earlyGlobal.value.corrXp14Win))
      ==> r == 0.0
  {
    if adv.None? || adv.value.earlyGlobal.None? then 0.0 else CorrCard(adv.value.earlyGlobal.value.corrXp14Win)
  }
}

=== FILE: js.dfy ===
/**
 * JavaScript values as the dashboard's pages see them in decoded JSON, with the
 * two coercions the pages rely on: truthiness (`if (x)`, `x || y`, `!x`) and
 * `Number(x)`. Floating-point rounding is not modelled: a finite number is a real.
 */
module Js {

  /** A value that may be absent (`null` / `undefined` / a missing key). */
  datatype Option<+T> = None | Some(value: T) {
    function GetOr(default: T): T {
      match this
      case Some(v) => v
      case None => default
    }
  }

  /** A JavaScript number: finite, or one of the three non-finite values. */
  datatype Num = Finite(r: real) | NaN | Infinity | NegInfinity

  /**
   * A decoded JavaScript value. A string carries the number `Number(s)` yields
   * for it (string-to-number parsing is not modelled); objects and arrays are
   * opaque here.
   */
  datatype JsValue =
    | Undefined
    | Null
    | Bool(b: bool)
    | Number(n: Num)
    | Str(s: string, numeric: Num)
    | Object

  /** JavaScript truthiness: `false`, `0`, `NaN`, `""`, `null` and `undefined` are falsy. */
  predicate Truthy(v: JsValue) {
    match v
    case Undefined => false
    case Null => false
    case Bool(b) => b
    case Number(n) => !(n.NaN? || n == Finite(0.0))
    case Str(s, _) => s != ""
    case Object => true
  }

  /** `v == null` in JavaScript (loose equality): true of `null` and `undefined` only. */
  predicate IsNullish(v: JsValue) {
    v.Undefined? || v.Null?
  }

  /** `Number(v)`. */
  function ToNumber(v: JsValue): Num {
    match v
    case Undefined => NaN
    case Null => Finite(0.0)
    case Bool(b) => Finite(if b then 1.0 else 0.0)
    case Number(n) => n
    case Str(_, numeric) => numeric
    case Object => NaN
  }

  /** `n * 100`: scaling keeps NaN and the infinities, and is exact on finite values. */
  function Times100(n: Num): Num {
    match n
    case Finite(r) => Finite(r * 100.0)
    case NaN => NaN
    case Infinity => Infinity
    case NegInfinity => NegInfinity
  }

  /** `v || fallback`: the value itself when truthy, otherwise the fallback. */
  function Or(v: JsValue, fallback: JsValue): JsValue {
    if Truthy(v) then v else fallback
  }

  const Zero: JsValue := Number(Finite(0.0))
}

=== FILE: matches.dfy ===
/**
 * The match analysis page: up to 100 matches, optionally filtered by champion
 * and role on the server, folded into a per-champion win tally, a top-15
 * win-rate ranking, a gold-at-14-minutes histogram with 500-gold buckets, and
 * three summary figures.
 */
module Matches {
  import opened Js
  import opened Seqs
  import opened OrderedMaps
  import opened Sorting
  import opened Api

  /** Lines 16-19: the query sent to `/matches`; each filter only when non-empty, then `limit=100`. */
  function Params(championFilter: string, roleFilter: string): (r: seq<Param>)
    ensures |r| >= 1 && r[|r| - 1] == Param("limit", IntParam(100))
  {
    OptionalParam("champion", championFilter) + OptionalParam("role", roleFilter) + [Param("limit", IntParam(100))]
  }

  /** The filters reach the server exactly when set, and the limit is always 100. */
  lemma ParamsSpec(championFilter: string, roleFilter: string)
    ensures Lookup(Params(championFilter, roleFilter), "champion") ==
      if championFilter != "" then Some(StrParam(championFilter)) else None
    ensures Lookup(Params(championFilter, roleFilter), "role") ==
      if roleFilter != "" then Some(StrParam(roleFilter)) else None
    ensures Lookup(Params(championFilter, roleFilter), "limit") == Some(IntParam(100))
  {
    var limit := [Param("limit", IntParam(100))];
    var a := OptionalParam("champion", championFilter);
    var b := OptionalParam("role", roleFilter);
    assert Params(championFilter, roleFilter) == a + (b + limit);
    LookupConcat(a, b + limit, "champion");
    LookupConcat(a, b + limit, "role");
    LookupConcat(a, b + limit, "limit");
    LookupConcat(b, limit, "champion");
    LookupConcat(b, limit, "role");
    LookupConcat(b, limit, "limit");
  }

  /** Lines 21-22: the match list after the request; a failed request leaves it as it was. */
  function Fetched(previous: seq<Match>, response: Result<seq<Match>>): (r: seq<Match>)
    ensures response.Err? ==> r == previous
    ensures response.Ok? ==> r == response.value
  {
    Settle(previous, response)
  }

  /** One champion's running counts. */
  datatype Tally = Tally(wins: nat, total: nat)

  /** `winRateByChampion`: champion name to tally, in order of first appearance. */
  type Tallies = OrderedMap<string, Tally>

  /** Lines 34-38 for one match: start the champion at zero if absent, count the game, and count a win when `win` is truthy. */
  function CountMatch(acc: Tallies, m: Match): Tallies {
    var t := Get(acc, m.champion).GetOr(Tally(0, 0));
    Put(acc, m.champion, Tally(t.wins + if Truthy(m.win) then 1 else 0, t.total + 1))
  }

  /** Lines 33-40: `matches.reduce(..., {})`. */
  function WinRateByChampion(ms: seq<Match>): Tallies
    decreases |ms|
  {
    if |ms| == 0 then [] else CountMatch(WinRateByChampion(ms[..|ms| - 1]), ms[|ms| - 1])
  }

  function PlayedBy(c: string): Match -> bool {
    (m: Match) => m.champion == c
  }

  function WonBy(c: string): Match -> bool {
    (m: Match) => m.champion == c && Truthy(m.win)
  }

  /** `m => m.win`: the summary's win test, the same truthiness test as the tally's. */
  function Won(m: Match): bool {
    Truthy(m.win)
  }

  /** The number of matches played with `c`. */
  function Games(ms: seq<Match>, c: string): nat {
    |Filter(ms, PlayedBy(c))|
  }

  /** The number of those matches whose `win` is truthy. */
  function Wins(ms: seq<Match>, c: string): nat {
    |Filter(ms, WonBy(c))|
  }

  /**
   * Each champion's tally counts its matches and, of those, the ones with a
   * truthy `win`; a champion with no match has no entry.
   */
  lemma {:induction false} TallySpec(ms: seq<Match>, c: string)
    ensures Get(WinRateByChampion(ms), c) ==
      if Games(ms, c) == 0 then None else Some(Tally(Wins(ms, c), Games(ms, c)))
    decreases |ms|
  {
    if |ms| != 0 {
      var n := |ms| - 1;
      var m := ms[n];
      var pre := ms[..n];
      var prev := WinRateByChampion(pre);
      assert WinRateByChampion(ms) == CountMatch(prev, m);
      TallySpec(pre, c);
      CountMatchGet(prev, m, c);
      assert ms == pre + [m];
      CountsSnoc(pre, m, c);
      if c == m.champion {
        WinsAtMostGames(pre, c);
        assert Get(prev, c).GetOr(Tally(0, 0)) == Tally(Wins(pre, c), Games(pre, c));
      }
    }
  }

  /** One step of the fold: only the match's champion changes, by one game and possibly one win. */
  lemma CountMatchGet(acc: Tallies, m: Match, c: string)
    ensures Get(CountMatch(acc, m), c) ==
      if c != m.champion then Get(acc, c)
      else
        var t := Get(acc, c).GetOr(Tally(0, 0));
        Some(Tally(t.wins + if Truthy(m.win) then 1 else 0, t.total + 1))
  {
    var t := Get(acc, m.champion).GetOr(Tally(0, 0));
    var v := Tally(t.wins + if Truthy(m.win) then 1 else 0, t.total + 1);
    assert CountMatch(acc, m) == Put(acc, m.champion, v);
    GetPut(acc, m.champion, v, c);
  }

  /** Appending a match adds to its champion's games, and to its wins when `win` is truthy. */
  lemma CountsSnoc(ms: seq<Match>, m: Match, c: string)
    ensures Games(ms + [m], c) == Games(ms, c) + if m.champion == c then 1 else 0
    ensures Wins(ms + [m], c) == Wins(ms, c) + if m.champion == c && Truthy(m.win) then 1 else 0
  {
    FilterSnoc(ms, m, PlayedBy(c));
    FilterSnoc(ms, m, WonBy(c));
  }

  /** A win is a game: no champion has more wins than games. */
  lemma WinsAtMostGames(ms: seq<Match>, c: string)
    ensures Wins(ms, c) <= Games(ms, c)
  {
    FilterWeaker(ms, WonBy(c), PlayedBy(c));
  }

  /** A champion has a tally exactly when it appears in the matches. */
  lemma TallyKeys(ms: seq<Match>, c: string)
    ensures Has(WinRateByChampion(ms), c) <==> exists i :: 0 <= i < |ms| && ms[i].champion == c
  {
    TallySpec(ms, c);
    PlayedSome(ms, c);
  }

  lemma {:induction false} PlayedSome(ms: seq<Match>, c: string)
    ensures Games(ms, c) != 0 <==> exists i :: 0 <= i < |ms| && ms[i].champion == c
    decreases |ms|
  {
    if |ms| != 0 {
      PlayedSome(ms[1..], c);
      if ms[0].champion != c && exists i :: 0 <= i < |ms| && ms[i].champion == c {
        var i :| 0 <= i < |ms| && ms[i].champion == c;
        assert ms[1..][i - 1].champion == c;
      }
    }
  }

  /** Each champion appears once in the tally. */
  lemma {:induction false} TallyDistinct(ms: seq<Match>)
    ensures Distinct(WinRateByChampion(ms))
    decreases |ms|
  {
    if |ms| != 0 {
      var n := |ms| - 1;
      var prev := WinRateByChampion(ms[..n]);
      TallyDistinct(ms[..n]);
      var t := Get(prev, ms[n].champion).GetOr(Tally(0, 0));
      PutDistinct(prev, ms[n].champion, Tally(t.wins + if Truthy(ms[n].win) then 1 else 0, t.total + 1));
    }
  }

  function TotalOf(t: Tally): int { t.total }
  function WinsOf(t: Tally): int { t.wins }

  /** Every match is counted once: the totals sum to the number of matches and the wins to the number of won matches. */
  lemma {:induction false} TallySums(ms: seq<Match>)
    ensures SumOf(Values(WinRateByChampion(ms)), TotalOf) == |ms|
    ensures SumOf(Values(WinRateByChampion(ms)), WinsOf) == |Filter(ms, Won)|
    decreases |ms|
  {
    if |ms| != 0 {
      var n := |ms| - 1;
      var m := ms[n];
      var prev := WinRateByChampion(ms[..n]);
      TallySums(ms[..n]);
      var t := Get(prev, m.champion).GetOr(Tally(0, 0));
      var t' := Tally(t.wins + if Truthy(m.win) then 1 else 0, t.total + 1);
      SumValuesPut(prev, m.champion, t', TotalOf);
      SumValuesPut(prev, m.champion, t', WinsOf);
      assert ms == ms[..n] + [m];
      FilterSnoc(ms[..n], m, Won);
    }
  }

  /** Every tally has at least one game and no more wins than games. */
  lemma TallyBounds(ms: seq<Match>)
    ensures forall e :: e in WinRateByChampion(ms) ==>
      e.1.total == Games(ms, e.0) >= 1 && e.1.wins == Wins(ms, e.0) <= e.1.total
  {
    TallyDistinct(ms);
    forall e | e in WinRateByChampion(ms)
      ensures e.1.total == Games(ms, e.0) >= 1 && e.1.wins == Wins(ms, e.0) <= e.1.total
    {
      InGet(WinRateByChampion(ms), e.0, e.1);
      TallySpec(ms, e.0);
      WinsAtMostGames(ms, e.0);
    }
  }

  /** A bar of the win-rate chart. */
  datatype WinRateBar = WinRateBar(champion: string, winRate: real, games: nat)

  /** `(data.wins / data.total) * 100`, for a tally with at least one game. */
  function Rate(t: Tally): real
    requires t.total > 0
  {
    (t.wins as real / t.total as real) * 100.0
  }

  /** Lines 42-47: `Object.entries(winRateByChampion).map(...)`. */
  function Bars(ms: seq<Match>): (r: seq<WinRateBar>)
    ensures |r| == |WinRateByChampion(ms)|
    ensures forall i :: 0 <= i < |r| ==>
      r[i].champion == WinRateByChampion(ms)[i].0 && r[i].games == WinRateByChampion(ms)[i].1.total
  {
    var acc := WinRateByChampion(ms);
    TallyBounds(ms);
    assert forall i :: 0 <= i < |acc| ==> acc[i] in acc;
    seq(|acc|, i requires 0 <= i < |acc| => WinRateBar(acc[i].0, Rate(acc[i].1), acc[i].1.total))
  }

  function ByWinRate(b: WinRateBar): real {
    b.winRate
  }

  /**
   * Line 48-49: the bars sorted by win rate, greatest first, and the first 15
   * kept; no bar left out has a higher rate than one shown.
   */
  function Top15(bars: seq<WinRateBar>): (r: seq<WinRateBar>)
    ensures |r| == Min(15, |bars|)
    ensures SortedDesc(r, ByWinRate)
    ensures multiset(r) <= multiset(bars)
    ensures forall b, x :: b in r && x in bars && x !in r ==> x.winRate <= b.winRate
  {
    var r := Top(bars, ByWinRate, 15);
    assert forall b, x :: b in r && x in bars && x !in r ==> x.winRate <= b.winRate by {
      forall b, x | b in r && x in bars && x !in r ensures x.winRate <= b.winRate {
        assert ByWinRate(x) <= ByWinRate(b);
      }
    }
    r
  }

  /** Lines 42-49: the win-rate chart. */
  function WinRateData(ms: seq<Match>): seq<WinRateBar> {
    Top15(Bars(ms))
  }

  /** Each bar carries its champion's game count and win percentage, which lies in [0, 100]. */
  lemma BarsSpec(ms: seq<Match>)
    ensures forall b :: b in Bars(ms) ==>
      && b.games == Games(ms, b.champion) >= 1
      && b.winRate == (Wins(ms, b.champion) as real / Games(ms, b.champion) as real) * 100.0
      && 0.0 <= b.winRate <= 100.0
  {
    var bars := Bars(ms);
    var acc := WinRateByChampion(ms);
    TallyBounds(ms);
    forall i | 0 <= i < |bars|
      ensures && bars[i].games == Games(ms, bars[i].champion) >= 1
              && bars[i].winRate == (Wins(ms, bars[i].champion) as real / Games(ms, bars[i].champion) as real) * 100.0
              && 0.0 <= bars[i].winRate <= 100.0
    {
      assert acc[i] in acc;
      RateBounds(acc[i].1);
    }
  }

  /** At most 15 bars, one per champion shown; each carries its champion's game count and win percentage, which lies in [0, 100]. */
  lemma WinRateDataBars(ms: seq<Match>)
    ensures |WinRateData(ms)| == Min(15, |WinRateByChampion(ms)|)
    ensures forall i, j :: 0 <= i < j < |WinRateData(ms)| ==> WinRateData(ms)[i].champion != WinRateData(ms)[j].champion
    ensures forall b :: b in WinRateData(ms) ==>
      && b.games == Games(ms, b.champion) >= 1
      && b.winRate == (Wins(ms, b.champion) as real / Games(ms, b.champion) as real) * 100.0
      && 0.0 <= b.winRate <= 100.0
  {
    var bars := Bars(ms);
    var r := Top(bars, ByWinRate, 15);
    BarsSpec(ms);
    WinRateDataDistinct(ms);
    forall b | b in r
      ensures && b.games == Games(ms, b.champion) >= 1
              && b.winRate == (Wins(ms, b.champion) as real / Games(ms, b.champion) as real) * 100.0
              && 0.0 <= b.winRate <= 100.0
    {
      assert b in multiset(r);
      assert b in bars;
    }
  }

  function ChampionOf(b: WinRateBar): string {
    b.champion
  }

  /** No champion has two bars in the chart: the tally lists each champion once, and the chart draws from its bars. */
  lemma WinRateDataDistinct(ms: seq<Match>)
    ensures forall i, j :: 0 <= i < j < |WinRateData(ms)| ==> WinRateData(ms)[i].champion != WinRateData(ms)[j].champion
  {
    var bars := Bars(ms);
    var acc := WinRateByChampion(ms);
    TallyDistinct(ms);
    assert InjectiveOn(bars, ChampionOf) by {
      forall i, j | 0 <= i < j < |bars| ensures ChampionOf(bars[i]) != ChampionOf(bars[j]) {
        assert acc[i].0 != acc[j].0;
      }
    }
    SubMultisetInjective(bars, WinRateData(ms), ChampionOf);
    assert forall b :: ChampionOf(b) == b.champion;
  }

  lemma RateBounds(t: Tally)
    requires 0 < t.total && t.wins <= t.total
    ensures 0.0 <= Rate(t) <= 100.0
  {
    assert t.wins as real / t.total as real <= 1.0;
  }

  /** Lines 52 and 59: gold at 14 minutes counts only when truthy, so `null` and 0 are skipped. */
  predicate HasGold(m: Match) {
    m.gold14.Some? && m.gold14.value != 0
  }

  /** Line 54: `Math.floor(g / 500) * 500`, the lower bound of the bucket of `g`. */
  function Bucket(g: nat): (lower: nat)
    ensures lower % 500 == 0 && lower <= g < lower + 500
  {
    (g / 500) * 500
  }

  /** The bucket lower bounds of the matches with truthy gold, in match order. */
  function Ranges(ms: seq<Match>): (r: seq<nat>)
    ensures |r| == |Filter(ms, HasGold)|
    decreases |ms|
  {
    if |ms| == 0 then []
    else (if HasGold(ms[0]) then [Bucket(ms[0].gold14.value)] else []) + Ranges(ms[1..])
  }

  /**
   * `goldDistribution`: bucket to count, in order of first appearance. The
   * source keys buckets by the string `"lower-(lower+500)"`, which for
   * non-negative gold is determined by, and determines, `lower`.
   */
  type Histogram = OrderedMap<nat, nat>

  /** Lines 57-62: `if (!acc[key]) acc[key] = 0; acc[key]++`, folded over the ranges. */
  function CountRanges(rs: seq<nat>): Histogram
    decreases |rs|
  {
    if |rs| == 0 then []
    else
      var acc := CountRanges(rs[..|rs| - 1]);
      var key := rs[|rs| - 1];
      Put(acc, key, Get(acc, key).GetOr(0) + 1)
  }

  /** Lines 51-62. */
  function GoldDistribution(ms: seq<Match>): Histogram {
    CountRanges(Ranges(ms))
  }

  /** Each bucket's count is the number of occurrences of its bound; a bound that never occurs has no entry. */
  lemma {:induction false} CountRangesSpec(rs: seq<nat>, b: nat)
    ensures Get(CountRanges(rs), b) == if multiset(rs)[b] == 0 then None else Some(multiset(rs)[b])
    decreases |rs|
  {
    if |rs| != 0 {
      var n := |rs| - 1;
      var pre: seq<nat> := rs[..n];
      var acc := CountRanges(pre);
      CountRangesSpec(pre, b);
      GetPut(acc, rs[n], Get(acc, rs[n]).GetOr(0) + 1, b);
      assert rs == pre + [rs[n]];
      assert multiset(rs)[b] == multiset(pre)[b] + if rs[n] == b then 1 else 0;
    }
  }

  lemma {:induction false} CountRangesDistinct(rs: seq<nat>)
    ensures Distinct(CountRanges(rs))
    decreases |rs|
  {
    if |rs| != 0 {
      var n := |rs| - 1;
      var acc := CountRanges(rs[..n]);
      CountRangesDistinct(rs[..n]);
      PutDistinct(acc, rs[n], Get(acc, rs[n]).GetOr(0) + 1);
    }
  }

  function CountOf(n: nat): int { n }

  /** The counts sum to the number of ranges folded. */
  lemma {:induction false} CountRangesSum(rs: seq<nat>)
    ensures SumOf(Values(CountRanges(rs)), CountOf) == |rs|
    decreases |rs|
  {
    if |rs| != 0 {
      var n := |rs| - 1;
      var acc := CountRanges(rs[..n]);
      CountRangesSum(rs[..n]);
      SumValuesPut(acc, rs[n], Get(acc, rs[n]).GetOr(0) + 1, CountOf);
    }
  }

  /** A match whose truthy gold falls in `[lower, lower + 500)`. */
  function GoldIn(lower: nat): Match -> bool {
    (m: Match) => HasGold(m) && lower <= m.gold14.value < lower + 500
  }

  /** The ranges list one bucket bound per match with truthy gold, so a bound occurs once per such match in its bucket. */
  lemma {:induction false} RangesCount(ms: seq<Match>, lower: nat)
    requires lower % 500 == 0
    ensures multiset(Ranges(ms))[lower] == |Filter(ms, GoldIn(lower))|
    decreases |ms|
  {
    if |ms| != 0 {
      RangesCount(ms[1..], lower);
      assert multiset(Ranges(ms)) ==
        multiset(if HasGold(ms[0]) then [Bucket(ms[0].gold14.value)] else []) + multiset(Ranges(ms[1..]));
      if HasGold(ms[0]) {
        var g := ms[0].gold14.value;
        assert Bucket(g) == lower <==> lower <= g < lower + 500 by {
          if lower <= g < lower + 500 {
            BucketOfRange(g, lower);
          }
        }
      }
    }
  }

  /** A multiple of 500 whose bucket holds `g` is `g`'s bucket bound. */
  lemma BucketOfRange(g: nat, lower: nat)
    requires lower % 500 == 0 && lower <= g < lower + 500
    ensures Bucket(g) == lower
  {
    var k := lower / 500;
    assert lower == k * 500;
    assert g / 500 == k;
  }

  /** The keys of the count are the ranges counted. */
  lemma {:induction false} CountRangesKeys(rs: seq<nat>)
    ensures forall e :: e in CountRanges(rs) ==> e.0 in rs
    decreases |rs|
  {
    if |rs| != 0 {
      var n := |rs| - 1;
      var acc := CountRanges(rs[..n]);
      CountRangesKeys(rs[..n]);
      forall e | e in CountRanges(rs) ensures e.0 in rs {
        InPut(acc, rs[n], Get(acc, rs[n]).GetOr(0) + 1, e);
        if e in acc {
          assert e.0 in rs[..n];
        }
      }
    }
  }

  /**
   * The histogram: every key is a bucket bound (a multiple of 500); the count
   * under it is the number of matches with truthy gold in `[lower, lower + 500)`;
   * the counts sum to the number of matches with truthy gold.
   */
  lemma GoldDistributionSpec(ms: seq<Match>, lower: nat)
    requires lower % 500 == 0
    ensures Get(GoldDistribution(ms), lower) ==
      if |Filter(ms, GoldIn(lower))| == 0 then None else Some(|Filter(ms, GoldIn(lower))|)
    ensures forall e :: e in GoldDistribution(ms) ==> e.0 % 500 == 0
    ensures SumOf(Values(GoldDistribution(ms)), CountOf) == |Filter(ms, HasGold)|
  {
    CountRangesSpec(Ranges(ms), lower);
    RangesCount(ms, lower);
    CountRangesSum(Ranges(ms));
    RangesAreBounds(ms);
    CountRangesKeys(Ranges(ms));
  }

  lemma {:induction false} RangesAreBounds(ms: seq<Match>)
    ensures forall x :: x in Ranges(ms) ==> x % 500 == 0
    decreases |ms|
  {
    if |ms| != 0 {
      RangesAreBounds(ms[1..]);
    }
  }

  /** A bar of the gold histogram. */
  datatype GoldBin = GoldBin(range: nat, count: nat)

  function ByRange(b: GoldBin): real {
    b.range as real
  }

  function BinCount(b: GoldBin): int {
    b.count
  }

  /** Lines 64-68: `Object.entries(goldDistribution).map(...)`, reading the bound back from the key. */
  function Bins(h: Histogram): (r: seq<GoldBin>)
    ensures |r| == |h| && forall i :: 0 <= i < |h| ==> r[i] == GoldBin(h[i].0, h[i].1)
  {
    seq(|h|, i requires 0 <= i < |h| => GoldBin(h[i].0, h[i].1))
  }

  /** Lines 64-69: the bins sorted by bound, least first. */
  function GoldData(ms: seq<Match>): seq<GoldBin> {
    SortAsc(Bins(GoldDistribution(ms)), ByRange)
  }

  /**
   * The histogram chart: its bins are exactly the histogram's entries, in strictly
   * increasing order of bound, and their counts sum to the matches with truthy gold.
   */
  lemma GoldDataSpec(ms: seq<Match>)
    ensures var r := GoldData(ms);
      && multiset(r) == multiset(Bins(GoldDistribution(ms)))
      && (forall i, j :: 0 <= i < j < |r| ==> r[i].range < r[j].range)
      && SumOf(r, BinCount) == |Filter(ms, HasGold)|
  {
    var h := GoldDistribution(ms);
    CountRangesDistinct(Ranges(ms));
    BinsIncreasing(h, GoldData(ms));
    GoldDistributionSpec(ms, 0);
    SortAscSum(Bins(h), ByRange, BinCount);
    BinsSum(h);
  }

  /** Sorting the bins of a histogram by bound gives strictly increasing bounds, since no bound is listed twice. */
  lemma BinsIncreasing(h: Histogram, r: seq<GoldBin>)
    requires Distinct(h) && multiset(r) == multiset(Bins(h)) && SortedAsc(r, ByRange)
    ensures forall i, j :: 0 <= i < j < |r| ==> r[i].range < r[j].range
  {
    var bins := Bins(h);
    BinsAllDifferent(h, r);
    forall i, j | 0 <= i < j < |r| ensures r[i].range < r[j].range {
      assert r[i] in multiset(bins) && r[j] in multiset(bins);
      var a :| 0 <= a < |bins| && bins[a] == r[i];
      var b :| 0 <= b < |bins| && bins[b] == r[j];
      assert ByRange(r[i]) <= ByRange(r[j]);
      assert a != b;
      assert h[a].0 != h[b].0;
    }
  }

  /** A rearrangement of the bins of a histogram never repeats a bin. */
  lemma BinsAllDifferent(h: Histogram, r: seq<GoldBin>)
    requires Distinct(h) && multiset(r) == multiset(Bins(h))
    ensures forall i, j :: 0 <= i < j < |r| ==> r[i] != r[j]
  {
    forall i, j | 0 <= i < j < |r| ensures r[i] != r[j] {
      var x := r[i];
      assert r == r[..i] + [x] + r[i + 1..j] + [r[j]] + r[j + 1..];
      assert multiset(r)[x] >= 1 + if r[j] == x then 1 else 0;
      BinsOnce(h, x);
    }
  }

  /** With distinct keys, each bin occurs at most once. */
  lemma {:induction false} BinsOnce(h: Histogram, x: GoldBin)
    requires Distinct(h)
    ensures multiset(Bins(h))[x] <= 1
    decreases |h|
  {
    if |h| != 0 {
      assert Bins(h) == [GoldBin(h[0].0, h[0].1)] + Bins(h[1..]);
      assert Distinct(h[1..]);
      BinsOnce(h[1..], x);
      if x == GoldBin(h[0].0, h[0].1) {
        assert x !in Bins(h[1..]);
      }
    }
  }

  lemma {:induction false} BinsSum(h: Histogram)
    ensures SumOf(Bins(h), BinCount) == SumOf(Values(h), CountOf)
    decreases |h|
  {
    if |h| != 0 {
      assert Bins(h) == [GoldBin(h[0].0, h[0].1)] + Bins(h[1..]);
      ValuesCons(h);
      BinsSum(h[1..]);
    }
  }

  /** Line 120: the number of matches whose `win` is truthy. */
  function SummaryWins(ms: seq<Match>): (r: nat)
    ensures r <= |ms|
  {
    |Filter(ms, Won)|
  }

  /** Lines 126-128: the win percentage, or 0 with no matches. */
  function SummaryWinPercent(ms: seq<Match>): (r: real)
    ensures |ms| == 0 ==> r == 0.0
    ensures 0.0 <= r <= 100.0
    ensures |ms| > 0 ==> r * (|ms| as real) == (SummaryWins(ms) as real) * 100.0
  {
    if |ms| > 0 then (SummaryWins(ms) as real / |ms| as real) * 100.0 else 0.0
  }

  /** The summary's win count agrees with the per-champion tallies: it is the sum of their wins. */
  lemma SummaryAgreesWithTallies(ms: seq<Match>)
    ensures SummaryWins(ms) == SumOf(Values(WinRateByChampion(ms)), WinsOf)
    ensures |ms| == SumOf(Values(WinRateByChampion(ms)), TotalOf)
  {
    TallySums(ms);
  }
}

=== FILE: ordered_maps.dfy ===
/**
 * A plain JavaScript object used as a dictionary (`const acc = {}; acc[k] = v`).
 * `Object.keys` / `Object.values` / `Object.entries` enumerate it in insertion
 * order, and none of the keys the pages use (champion names, "lower-upper"
 * range strings) is an integer-like key, so insertion order is the whole story.
 * The object is modelled as its entries in that order.
 */
module OrderedMaps {
  import opened Js
  import opened Seqs

  type OrderedMap<K, V> = seq<(K, V)>

  /** `m[k]`, with `None` for `undefined`. */
  function Get<K(==), V>(m: OrderedMap<K, V>, k: K): Option<V>
    decreases |m|
  {
    if |m| == 0 then None
    else if m[0].0 == k then Some(m[0].1)
    else Get(m[1..], k)
  }

  predicate Has<K(==), V>(m: OrderedMap<K, V>, k: K) {
    Get(m, k).Some?
  }

  /** `Object.keys(m)`. */
  function Keys<K, V>(m: OrderedMap<K, V>): (r: seq<K>)
    ensures |r| == |m| && forall i :: 0 <= i < |m| ==> r[i] == m[i].0
  {
    seq(|m|, i requires 0 <= i < |m| => m[i].0)
  }

  /** `Object.values(m)`. */
  function Values<K, V>(m: OrderedMap<K, V>): (r: seq<V>)
    ensures |r| == |m| && forall i :: 0 <= i < |m| ==> r[i] == m[i].1
  {
    seq(|m|, i requires 0 <= i < |m| => m[i].1)
  }

  /** Every key is listed once: what any object's entries satisfy. */
  ghost predicate Distinct<K, V>(m: OrderedMap<K, V>) {
    forall i, j :: 0 <= i < j < |m| ==> m[i].0 != m[j].0
  }

  /** `m[k] = v`: an existing key keeps its place, a new key goes last. */
  function Put<K(==), V>(m: OrderedMap<K, V>, k: K, v: V): (r: OrderedMap<K, V>)
    ensures |r| == if Has(m, k) then |m| else |m| + 1
    decreases |m|
  {
    if |m| == 0 then [(k, v)]
    else if m[0].0 == k then [(k, v)] + m[1..]
    else [m[0]] + Put(m[1..], k, v)
  }

  /** A key is present exactly when it is listed. */
  lemma {:induction false} HasKeys<K, V>(m: OrderedMap<K, V>, k: K)
    ensures Has(m, k) <==> k in Keys(m)
    decreases |m|
  {
    if |m| != 0 {
      HasKeys(m[1..], k);
      assert Keys(m) == [m[0].0] + Keys(m[1..]);
    }
  }

  /** Reading after writing: the written key has the new value, every other key its old one. */
  lemma {:induction false} GetPut<K, V>(m: OrderedMap<K, V>, k: K, v: V, k': K)
    ensures Get(Put(m, k, v), k') == if k' == k then Some(v) else Get(m, k')
    decreases |m|
  {
    if |m| != 0 && m[0].0 != k {
      GetPut(m[1..], k, v, k');
      assert Put(m, k, v)[1..] == Put(m[1..], k, v);
    }
  }

  /** The keys of a non-empty object: the first key, then the rest. */
  lemma KeysCons<K, V>(m: OrderedMap<K, V>)
    requires |m| != 0
    ensures Keys(m) == [m[0].0] + Keys(m[1..])
  {
    assert forall i :: 0 <= i < |m| ==> Keys(m)[i] == ([m[0].0] + Keys(m[1..]))[i];
  }

  /** The values of a non-empty object: the first value, then the rest. */
  lemma ValuesCons<K, V>(m: OrderedMap<K, V>)
    requires |m| != 0
    ensures Values(m) == [m[0].1] + Values(m[1..])
  {
    assert forall i :: 0 <= i < |m| ==> Values(m)[i] == ([m[0].1] + Values(m[1..]))[i];
  }

  /** Writing keeps the key order, appending the key when it is new. */
  lemma {:induction false} KeysPut<K, V>(m: OrderedMap<K, V>, k: K, v: V)
    ensures Keys(Put(m, k, v)) == if Has(m, k) then Keys(m) else Keys(m) + [k]
    decreases |m|
  {
    if |m| != 0 {
      var r := Put(m, k, v);
      KeysCons(m);
      KeysCons(r);
      if m[0].0 != k {
        KeysPut(m[1..], k, v);
        assert r[1..] == Put(m[1..], k, v);
      } else {
        assert r[1..] == m[1..];
      }
    }
  }

  /** Writing a new key appends its entry. */
  lemma {:induction false} PutNew<K, V>(m: OrderedMap<K, V>, k: K, v: V)
    requires !Has(m, k)
    ensures Put(m, k, v) == m + [(k, v)]
    decreases |m|
  {
    if |m| != 0 {
      PutNew(m[1..], k, v);
      assert m == [m[0]] + m[1..];
    }
  }

  /** Writing keeps the keys distinct. */
  lemma PutDistinct<K, V>(m: OrderedMap<K, V>, k: K, v: V)
    requires Distinct(m)
    ensures Distinct(Put(m, k, v))
  {
    var r := Put(m, k, v);
    KeysPut(m, k, v);
    HasKeys(m, k);
    assert forall i :: 0 <= i < |r| ==> Keys(r)[i] == r[i].0;
    assert forall i :: 0 <= i < |m| ==> Keys(m)[i] == m[i].0;
  }

  /** The sum of a measure over `Object.values` after `m[k] = v`: the old value's share is replaced by the new one's. */
  lemma {:induction false} SumValuesPut<K, V>(m: OrderedMap<K, V>, k: K, v: V, f: V -> int)
    ensures SumOf(Values(Put(m, k, v)), f)
         == SumOf(Values(m), f) - (if Has(m, k) then f(Get(m, k).value) else 0) + f(v)
    decreases |m|
  {
    if |m| != 0 {
      var r := Put(m, k, v);
      ValuesCons(m);
      ValuesCons(r);
      if m[0].0 == k {
        assert r[1..] == m[1..];
      } else {
        SumValuesPut(m[1..], k, v, f);
        assert r[1..] == Put(m[1..], k, v);
      }
    }
  }

  /** A present key's value is one of the entries. */
  lemma {:induction false} GetIn<K, V>(m: OrderedMap<K, V>, k: K)
    requires Has(m, k)
    ensures (k, Get(m, k).value) in m
    decreases |m|
  {
    if m[0].0 != k {
      GetIn(m[1..], k);
    }
  }

  /** With distinct keys, every entry is what reading its key gives. */
  lemma {:induction false} InGet<K, V>(m: OrderedMap<K, V>, k: K, v: V)
    requires Distinct(m) && (k, v) in m
    ensures Get(m, k) == Some(v)
    decreases |m|
  {
    if m[0] != (k, v) {
      assert m[0].0 != k by {
        var i :| 0 <= i < |m| && m[i] == (k, v);
        assert i != 0;
      }
      assert (k, v) in m[1..] by {
        var i :| 0 <= i < |m| && m[i] == (k, v);
        assert m[1..][i - 1] == (k, v);
      }
      InGet(m[1..], k, v);
    }
  }

  /** The entries after a write are the old ones and the written one. */
  lemma {:induction false} InPut<K, V>(m: OrderedMap<K, V>, k: K, v: V, e: (K, V))
    requires e in Put(m, k, v)
    ensures e in m || e == (k, v)
    decreases |m|
  {
    if |m| != 0 && m[0].0 != k && e != m[0] {
      InPut(m[1..], k, v, e);
    }
  }
}

=== FILE: rankings.dfy ===
/**
 * The rankings page: one `/champions/kda-ranking` request with a minimum game
 * count, a limit of 50 and an optional role, shown in API order as a top-20
 * KDA chart and a top-15 win-rate chart.
 */
module Rankings {
  import opened Js
  import opened Seqs
  import opened Api

  /** Lines 16-20: `minGames` and `limit: 50` always, then `role` when one is selected. */
  function Params(minGames: int, selectedRole: string): (r: seq<Param>)
    ensures |r| >= 2 && r[0] == Param("minGames", IntParam(minGames)) && r[1] == Param("limit", IntParam(50))
    ensures |r| == 2 <==> selectedRole == ""
    ensures forall i :: 2 <= i < |r| ==> r[i] == Param("role", StrParam(selectedRole))
  {
    [Param("minGames", IntParam(minGames)), Param("limit", IntParam(50))] + OptionalParam("role", selectedRole)
  }

  /** The request always carries the minimum and the limit, and the role exactly when selected. */
  lemma ParamsSpec(minGames: int, selectedRole: string)
    ensures Lookup(Params(minGames, selectedRole), "minGames") == Some(IntParam(minGames))
    ensures Lookup(Params(minGames, selectedRole), "limit") == Some(IntParam(50))
    ensures Lookup(Params(minGames, selectedRole), "role") ==
      if selectedRole != "" then Some(StrParam(selectedRole)) else None
  {
    var fixed := [Param("minGames", IntParam(minGames)), Param("limit", IntParam(50))];
    LookupConcat(fixed, OptionalParam("role", selectedRole), "role");
    LookupOptional("role", selectedRole, "role");
    assert fixed[1..][1..] == [];
  }

  /** Lines 22-23: the ranking after the request; a failed request leaves it as it was. */
  function Fetched(previous: seq<KdaEntry>, response: Result<seq<KdaEntry>>): (r: seq<KdaEntry>)
    ensures response.Err? ==> r == previous
    ensures response.Ok? ==> r == response.value
  {
    Settle(previous, response)
  }

  /** Line 34: the first `min(20, n)` entries, in API order (no re-sort). */
  function TopKda(ranking: seq<KdaEntry>): (r: seq<KdaEntry>)
    ensures |r| == Min(20, |ranking|)
    ensures forall i :: 0 <= i < |r| ==> r[i] == ranking[i]
  {
    Prefix(ranking, 20)
  }

  /** A point of the win-rate chart. */
  datatype WinRatePoint = WinRatePoint(champion: string, winRate: real, kda: real)

  /** Lines 35-39: one point for each of the first `min(15, n)` entries, from the same index. */
  function WinRateData(ranking: seq<KdaEntry>): (r: seq<WinRatePoint>)
    ensures |r| == Min(15, |ranking|)
    ensures forall i :: 0 <= i < |r| ==>
      r[i] == WinRatePoint(ranking[i].champion, ranking[i].winRate * 100.0, ranking[i].avgKda)
  {
    var top := Prefix(ranking, 15);
    seq(|top|, i requires 0 <= i < |top| => WinRatePoint(top[i].champion, top[i].winRate * 100.0, top[i].avgKda))
  }

  /** The win-rate chart covers the first 15 of the 20 champions of the KDA chart, in the same order. */
  lemma ChartsAgree(ranking: seq<KdaEntry>)
    ensures |WinRateData(ranking)| <= |TopKda(ranking)|
    ensures forall i :: 0 <= i < |WinRateData(ranking)| ==> WinRateData(ranking)[i].champion == TopKda(ranking)[i].champion
  {
  }

  /**
   * Line 78: `parseInt(e.target.value) || 20`, where `parsed` is `None` when
   * `parseInt` gives NaN.
   */
  function MinGamesInput(parsed: Option<int>): (r: int)
    ensures r != 0
    ensures parsed.None? || parsed == Some(0) ==> r == 20
    ensures parsed.Some? && parsed.value != 0 ==> r == parsed.value
  {
    match parsed
    case Some(n) => if n != 0 then n else 20
    case None => 20
  }
}

=== FILE: seqs.dfy ===
/**
 * The array operations the pages chain together: `filter`, `slice(0, n)` and a
 * numeric sum, as pure functions over sequences.
 */
module Seqs {

  function Min(a: int, b: int): int {
    if a <= b then a else b
  }

  /** `s.filter(p)`: the elements that satisfy `p`, each as often as in `s`, in order. */
  function Filter<T(==)>(s: seq<T>, p: T -> bool): (r: seq<T>)
    ensures |r| <= |s|
    ensures forall i :: 0 <= i < |r| ==> p(r[i])
    decreases |s|
  {
    if |s| == 0 then []
    else (if p(s[0]) then [s[0]] else []) + Filter(s[1..], p)
  }

  /** What a filter keeps: exactly the elements satisfying `p`, each as often as in `s`. */
  lemma {:induction false} FilterContents<T(!new)>(s: seq<T>, p: T -> bool)
    ensures forall x :: x in Filter(s, p) <==> x in s && p(x)
    ensures forall x :: multiset(Filter(s, p))[x] == if p(x) then multiset(s)[x] else 0
    decreases |s|
  {
    if |s| != 0 {
      FilterContents(s[1..], p);
      assert s == [s[0]] + s[1..];
      assert multiset(Filter(s, p)) == multiset(if p(s[0]) then [s[0]] else []) + multiset(Filter(s[1..], p));
    }
  }

  lemma FilterSingleton<T(!new)>(x: T, p: T -> bool)
    ensures Filter([x], p) == if p(x) then [x] else []
  {
    assert [x][1..] == [];
  }

  /** Filtering distributes over concatenation, so it keeps the relative order of what it keeps. */
  lemma {:induction false} FilterConcat<T(!new)>(a: seq<T>, b: seq<T>, p: T -> bool)
    ensures Filter(a + b, p) == Filter(a, p) + Filter(b, p)
    decreases |a|
  {
    if |a| == 0 {
      assert a + b == b;
    } else {
      assert (a + b)[0] == a[0];
      assert (a + b)[1..] == a[1..] + b;
      FilterConcat(a[1..], b, p);
    }
  }

  lemma FilterSnoc<T(!new)>(s: seq<T>, x: T, p: T -> bool)
    ensures Filter(s + [x], p) == Filter(s, p) + (if p(x) then [x] else [])
  {
    FilterConcat(s, [x], p);
    FilterSingleton(x, p);
  }

  /** A filter whose predicate holds of every element keeps the whole sequence. */
  lemma {:induction false} FilterKeepsAll<T(!new)>(s: seq<T>, p: T -> bool)
    requires forall x :: x in s ==> p(x)
    ensures Filter(s, p) == s
    decreases |s|
  {
    if |s| != 0 {
      assert s == [s[0]] + s[1..];
      FilterKeepsAll(s[1..], p);
    }
  }

  /** Filters with pointwise-equal predicates agree. */
  lemma {:induction false} FilterExt<T(!new)>(s: seq<T>, p: T -> bool, q: T -> bool)
    requires forall x :: p(x) == q(x)
    ensures Filter(s, p) == Filter(s, q)
    decreases |s|
  {
    if |s| != 0 {
      FilterExt(s[1..], p, q);
    }
  }

  /** `s.slice(0, n)`: the first `min(n, |s|)` elements, in order. */
  function Prefix<T>(s: seq<T>, n: nat): (r: seq<T>)
    ensures |r| == Min(n, |s|)
    ensures forall i :: 0 <= i < |r| ==> r[i] == s[i]
  {
    if n >= |s| then s else s[..n]
  }

  lemma PrefixSubMultiset<T>(s: seq<T>, n: nat)
    ensures multiset(Prefix(s, n)) <= multiset(s)
  {
    if n < |s| {
      assert s == s[..n] + s[n..];
    }
  }

  /** `s.reduce((a, x) => a + f(x), 0)`. */
  function SumOf<T>(s: seq<T>, f: T -> int): int
    decreases |s|
  {
    if |s| == 0 then 0 else f(s[0]) + SumOf(s[1..], f)
  }

  lemma {:induction false} SumOfConcat<T>(a: seq<T>, b: seq<T>, f: T -> int)
    ensures SumOf(a + b, f) == SumOf(a, f) + SumOf(b, f)
    decreases |a|
  {
    if |a| == 0 {
      assert a + b == b;
    } else {
      assert (a + b)[1..] == a[1..] + b;
      SumOfConcat(a[1..], b, f);
    }
  }

  /** No two elements share a key. */
  ghost predicate InjectiveOn<T, K>(s: seq<T>, key: T -> K) {
    forall i, j :: 0 <= i < j < |s| ==> key(s[i]) != key(s[j])
  }

  /** With distinct keys, no element occurs twice. */
  lemma {:induction false} InjectiveOnce<T, K>(s: seq<T>, key: T -> K, x: T)
    requires InjectiveOn(s, key)
    ensures multiset(s)[x] <= 1
    decreases |s|
  {
    if |s| != 0 {
      var t := s[1..];
      assert s == [s[0]] + t;
      assert InjectiveOn(t, key) by {
        forall i, j | 0 <= i < j < |t| ensures key(t[i]) != key(t[j]) {
          assert t[i] == s[i + 1] && t[j] == s[j + 1];
        }
      }
      InjectiveOnce(t, key, x);
      forall k | 0 <= k < |t| ensures t[k] != s[0] {
        assert key(s[0]) != key(s[k + 1]);
      }
      assert s[0] !in t;
    }
  }

  /** Drawing elements from a sequence with distinct keys, without repetition, keeps the keys distinct. */
  lemma SubMultisetInjective<T, K>(s: seq<T>, r: seq<T>, key: T -> K)
    requires InjectiveOn(s, key) && multiset(r) <= multiset(s)
    ensures InjectiveOn(r, key)
  {
    forall i, j | 0 <= i < j < |r| ensures key(r[i]) != key(r[j]) {
      var x := r[i];
      assert r == r[..i] + [x] + r[i + 1..j] + [r[j]] + r[j + 1..];
      assert multiset(r)[x] >= 1 + if r[j] == x then 1 else 0;
      InjectiveOnce(s, key, x);
      assert x in multiset(s) && r[j] in multiset(s);
      var a :| 0 <= a < |s| && s[a] == x;
      var b :| 0 <= b < |s| && s[b] == r[j];
      assert a != b;
    }
  }

  /** A filter with a weaker predicate keeps at least as many elements. */
  lemma {:induction false} FilterWeaker<T(!new)>(s: seq<T>, p: T -> bool, q: T -> bool)
    requires forall x :: p(x) ==> q(x)
    ensures |Filter(s, p)| <= |Filter(s, q)|
    decreases |s|
  {
    if |s| != 0 {
      FilterWeaker(s[1..], p, q);
    }
  }
}

=== FILE: sorting.dfy ===
/**
 * `Array.prototype.sort` with a numeric comparator, as the pages use it
 * (`(a, b) => key(b) - key(a)` and `(a, b) => key(a) - key(b)`). The sort is
 * stable (ES2019), so elements with equal keys keep their input order; it is
 * modelled as a functional insertion sort, and `Top` is sort-then-`slice(0, n)`.
 */
module Sorting {
  import opened Seqs

  /** Non-increasing by `key`. */
  ghost predicate SortedDesc<T>(s: seq<T>, key: T -> real) {
    forall i, j :: 0 <= i < j < |s| ==> key(s[i]) >= key(s[j])
  }

  /** Non-decreasing by `key`. */
  ghost predicate SortedAsc<T>(s: seq<T>, key: T -> real) {
    forall i, j :: 0 <= i < j < |s| ==> key(s[i]) <= key(s[j])
  }

  /** The elements whose key equals `k`. */
  function KeyIs<T>(key: T -> real, k: real): T -> bool {
    x => key(x) == k
  }

  function Negate<T>(key: T -> real): T -> real {
    x => -key(x)
  }

  /** Inserts `x` in front of the first element whose key does not exceed its own. */
  function Insert<T(==)>(x: T, s: seq<T>, key: T -> real): (r: seq<T>)
    ensures multiset(r) == multiset(s) + multiset{x}
    decreases |s|
  {
    if |s| == 0 || key(x) >= key(s[0]) then [x] + s
    else
      assert s == [s[0]] + s[1..];
      [s[0]] + Insert(x, s[1..], key)
  }

  /** Insertion into a sorted sequence keeps it sorted. */
  lemma {:induction false} InsertSorted<T>(x: T, s: seq<T>, key: T -> real)
    requires SortedDesc(s, key)
    ensures SortedDesc(Insert(x, s, key), key)
    decreases |s|
  {
    var r := Insert(x, s, key);
    if |s| == 0 || key(x) >= key(s[0]) {
      assert r == [x] + s;
      forall i, j | 0 <= i < j < |r| ensures key(r[i]) >= key(r[j]) {
        if i == 0 {
          assert j == 1 || key(s[0]) >= key(s[j - 1]);
        }
      }
    } else {
      var t := Insert(x, s[1..], key);
      InsertSorted(x, s[1..], key);
      assert r == [s[0]] + t;
      forall i, j | 0 <= i < j < |r| ensures key(r[i]) >= key(r[j]) {
        if i == 0 {
          var y := t[j - 1];
          assert y in multiset(t);
          if y != x {
            assert y in multiset(s[1..]);
            var k :| 0 <= k < |s[1..]| && s[1..][k] == y;
            assert s[k + 1] == y;
          }
        } else {
          assert r[i] == t[i - 1] && r[j] == t[j - 1];
        }
      }
    }
  }

  /** Stable sort, greatest key first. */
  function SortDesc<T(==)>(s: seq<T>, key: T -> real): (r: seq<T>)
    ensures SortedDesc(r, key)
    ensures multiset(r) == multiset(s)
    ensures |r| == |s|
    decreases |s|
  {
    if |s| == 0 then []
    else
      assert s == [s[0]] + s[1..];
      InsertSorted(s[0], SortDesc(s[1..], key), key);
      var r := Insert(s[0], SortDesc(s[1..], key), key);
      assert |r| == |multiset(r)|;
      r
  }

  /** Stable sort, least key first. */
  function SortAsc<T(==)>(s: seq<T>, key: T -> real): (r: seq<T>)
    ensures SortedAsc(r, key)
    ensures multiset(r) == multiset(s)
    ensures |r| == |s|
  {
    var r := SortDesc(s, Negate(key));
    assert forall i, j :: 0 <= i < j < |r| ==> Negate(key)(r[i]) >= Negate(key)(r[j]);
    r
  }

  /** Two single elements that cannot both be kept may be filtered in either order. */
  lemma SingletonsCommute<T(!new)>(x: T, y: T, p: T -> bool, rest: seq<T>)
    requires !(p(x) && p(y))
    ensures Filter([y], p) + (Filter([x], p) + rest) == Filter([x], p) + (Filter([y], p) + rest)
  {
    FilterSingleton(x, p);
    FilterSingleton(y, p);
    if p(x) {
      assert Filter([y], p) == [];
    } else {
      assert Filter([x], p) == [];
    }
  }

  /** Insertion puts `x` ahead of every element with the same key. */
  lemma {:induction false} InsertStable<T(!new)>(x: T, s: seq<T>, key: T -> real, k: real)
    ensures Filter(Insert(x, s, key), KeyIs(key, k)) == Filter([x], KeyIs(key, k)) + Filter(s, KeyIs(key, k))
    decreases |s|
  {
    var p := KeyIs(key, k);
    if |s| == 0 || key(x) >= key(s[0]) {
      FilterConcat([x], s, p);
    } else {
      var t := Insert(x, s[1..], key);
      calc {
        Filter(Insert(x, s, key), p);
        Filter([s[0]] + t, p);
        { FilterConcat([s[0]], t, p); }
        Filter([s[0]], p) + Filter(t, p);
        { InsertStable(x, s[1..], key, k); }
        Filter([s[0]], p) + (Filter([x], p) + Filter(s[1..], p));
        { assert p(x) == (key(x) == k) && p(s[0]) == (key(s[0]) == k);
          SingletonsCommute(x, s[0], p, Filter(s[1..], p)); }
        Filter([x], p) + (Filter([s[0]], p) + Filter(s[1..], p));
        { FilterConcat([s[0]], s[1..], p); assert [s[0]] + s[1..] == s; }
        Filter([x], p) + Filter(s, p);
      }
    }
  }

  /** Stability: for every key, the elements carrying it come out in their input order. */
  lemma {:induction false} SortDescStable<T(!new)>(s: seq<T>, key: T -> real, k: real)
    ensures Filter(SortDesc(s, key), KeyIs(key, k)) == Filter(s, KeyIs(key, k))
    decreases |s|
  {
    if |s| != 0 {
      var p := KeyIs(key, k);
      SortDescStable(s[1..], key, k);
      InsertStable(s[0], SortDesc(s[1..], key), key, k);
      assert s == [s[0]] + s[1..];
      FilterConcat([s[0]], s[1..], p);
    }
  }

  /** Insertion adds the inserted element's measure to the sum. */
  lemma {:induction false} InsertSum<T>(x: T, s: seq<T>, key: T -> real, f: T -> int)
    ensures SumOf(Insert(x, s, key), f) == f(x) + SumOf(s, f)
    decreases |s|
  {
    if |s| == 0 || key(x) >= key(s[0]) {
      assert ([x] + s)[1..] == s;
    } else {
      InsertSum(x, s[1..], key, f);
      assert ([s[0]] + Insert(x, s[1..], key))[1..] == Insert(x, s[1..], key);
    }
  }

  /** Sorting does not change a sum over the elements. */
  lemma {:induction false} SortDescSum<T>(s: seq<T>, key: T -> real, f: T -> int)
    ensures SumOf(SortDesc(s, key), f) == SumOf(s, f)
    decreases |s|
  {
    if |s| != 0 {
      SortDescSum(s[1..], key, f);
      InsertSum(s[0], SortDesc(s[1..], key), key, f);
    }
  }

  lemma SortAscSum<T>(s: seq<T>, key: T -> real, f: T -> int)
    ensures SumOf(SortAsc(s, key), f) == SumOf(s, f)
  {
    SortDescSum(s, Negate(key), f);
  }

  /** In a descending sequence, a copy of `x` beyond the prefix means every kept element ranks at least as high as `x`. */
  lemma PrefixDropped<T>(sorted: seq<T>, key: T -> real, n: nat)
    requires SortedDesc(sorted, key)
    ensures forall x, e :: multiset(Prefix(sorted, n))[x] < multiset(sorted)[x] && e in Prefix(sorted, n) ==> key(e) >= key(x)
  {
    var r := Prefix(sorted, n);
    if n < |sorted| {
      var rest := sorted[n..];
      assert sorted == r + rest;
      forall x, e | multiset(r)[x] < multiset(sorted)[x] && e in r ensures key(e) >= key(x) {
        assert multiset(sorted) == multiset(r) + multiset(rest);
        assert x in multiset(rest);
        var j :| 0 <= j < |rest| && rest[j] == x;
        var i :| 0 <= i < |r| && r[i] == e;
        assert sorted[i] == e && sorted[n + j] == x;
      }
    }
  }

  /**
   * `[...s].sort(byKeyDesc).slice(0, n)`: at most `n` elements of `s`, greatest
   * key first, and no element left out has a greater key than one kept.
   */
  function Top<T(==,!new)>(s: seq<T>, key: T -> real, n: nat): (r: seq<T>)
    ensures |r| == Min(n, |s|)
    ensures SortedDesc(r, key)
    ensures multiset(r) <= multiset(s)
    ensures forall x, e :: x in s && x !in r && e in r ==> key(e) >= key(x)
    ensures forall x, e :: multiset(r)[x] < multiset(s)[x] && e in r ==> key(e) >= key(x)
  {
    var sorted := SortDesc(s, key);
    var r := Prefix(sorted, n);
    PrefixSubMultiset(sorted, n);
    PrefixDropped(sorted, key, n);
    assert forall x :: x in s && x !in r ==> multiset(r)[x] < multiset(s)[x] by {
      forall x | x in s && x !in r ensures multiset(r)[x] < multiset(s)[x] {
        assert x in multiset(s);
      }
    }
    r
  }

  /** Stability of a selection: for every key, the kept elements carrying it are the first of those in the input. */
  lemma TopStable<T(!new)>(s: seq<T>, key: T -> real, n: nat, k: real)
    ensures Filter(Top(s, key, n), KeyIs(key, k)) <= Filter(s, KeyIs(key, k))
  {
    var sorted := SortDesc(s, key);
    SortDescStable(s, key, k);
    if n < |sorted| {
      assert sorted == sorted[..n] + sorted[n..];
      FilterConcat(sorted[..n], sorted[n..], KeyIs(key, k));
    }
  }
}

=== FILE: stats.dfy ===
/**
 * The statistics page: one request for the advanced correlations, shaped into
 * an early-game chart (gold and XP against victory), a per-role KDA chart and
 * four cards. Every coefficient is shown as a percentage, with `'0.0'` for
 * anything missing or non-finite.
 */
module Stats {
  import opened Js
  import opened Api
  import opened Text
  import opened Format
  import Home

  /**
   * Lines 16-23 given the response: the decoded body, or `null` on failure. A
   * body that is not an object reads as `null`: every value below is then the
   * same as for `null`.
   */
  function Load(response: Result<CorrPayload>): (r: Option<AdvancedCorrelations>)
    ensures response.Err? ==> r.None?
    ensures response.Ok? && response.value.CorrObject? ==> r == Some(response.value.corr)
  {
    match response
    case Ok(CorrObject(c)) => Some(c)
    case _ => None
  }

  /**
   * Line 18 as written: `getAdvancedCorrelations` is not a function of the
   * `api` object, so the call throws a `TypeError` and the page always holds
   * `null`, whatever the server would answer.
   */
  function LoadAsWritten(response: Result<CorrPayload>): (r: Option<AdvancedCorrelations>)
    ensures r.None?
  {
    Load(Call(GetAdvancedCorrelations, response))
  }

  /** `safePercent(x * 100)`: `*` coerces its operand with `Number`. */
  function Percent(v: JsValue): real {
    SafePercent(Times100(ToNumber(v)))
  }

  /** The value shown for a coefficient is its percentage when `Number` of it is finite, and 0 otherwise. */
  lemma PercentSpec(v: JsValue)
    ensures ToNumber(v).Finite? ==> Percent(v) == ToNumber(v).r * 100.0
    ensures !ToNumber(v).Finite? ==> Percent(v) == 0.0
    ensures v.Null? ==> Percent(v) == 0.0
  {
  }

  /** A bar of the early-game chart. */
  datatype NamedValue = NamedValue(name: string, value: real)

  const GoldLabel: string := "Ouro vs Vitória"
  const XpLabel: string := "XP vs Vitória"

  /** Lines 44-53: no bars without the early-game block, otherwise gold then XP. */
  function CorrelationData(adv: Option<AdvancedCorrelations>): (r: seq<NamedValue>)
    ensures adv.None? || adv.value.earlyGlobal.None? <==> r == []
    ensures r != [] ==> |r| == 2 && r[0].name == GoldLabel && r[1].name == XpLabel
  {
    if adv.Some? && adv.value.earlyGlobal.Some? then
      var e := adv.value.earlyGlobal.value;
      [NamedValue(GoldLabel, Percent(e.corrGold14Win)), NamedValue(XpLabel, Percent(e.corrXp14Win))]
    else []
  }

  /** A bar of the per-role chart. */
  datatype RoleBar = RoleBar(role: string, correlation: real, games: JsValue)

  /**
   * Line 57 as written: `role.role?.toUpperCase() || role.role || '-'`, for a
   * role that is absent or a string.
   */
  function RoleLabel(role: Option<string>): string {
    match role
    case None => "-"
    case Some(s) => if Upper(s) != "" then Upper(s) else if s != "" then s else "-"
  }

  /**
   * The label is the upper-cased role, or `'-'` when the role is absent or
   * empty: the middle fallback `|| role.role` never applies, since upper-casing
   * a non-empty string gives a non-empty one.
   */
  lemma RoleLabelSpec(role: Option<string>)
    ensures RoleLabel(role) == if role.Some? && role.value != "" then Upper(role.value) else "-"
  {
    if role.Some? {
      UpperKeepsEmptiness(role.value);
    }
  }

  /** Lines 56-60 for one element. */
  function RoleBarOf(rc: RoleCorrelation): (r: RoleBar)
    ensures r.role == RoleLabel(rc.role) && r.correlation == Percent(rc.corrKdaWin)
    ensures Truthy(rc.games) ==> r.games == rc.games
    ensures !Truthy(rc.games) ==> r.games == Zero
  {
    RoleBar(RoleLabel(rc.role), Percent(rc.corrKdaWin), Or(rc.games, Zero))
  }

  /** Lines 56-60: one bar per `kdaByRole` element, in order; none when the block is missing. */
  function RoleData(adv: Option<AdvancedCorrelations>): (r: seq<RoleBar>)
    ensures adv.None? || adv.value.kdaByRole.None? ==> r == []
    ensures adv.Some? && adv.value.kdaByRole.Some? ==>
      |r| == |adv.value.kdaByRole.value|
      && forall i :: 0 <= i < |r| ==> r[i] == RoleBarOf(adv.value.kdaByRole.value[i])
  {
    if adv.Some? && adv.value.kdaByRole.Some? then
      var rows := adv.value.kdaByRole.value;
      seq(|rows|, i requires 0 <= i < |rows| => RoleBarOf(rows[i]))
    else []
  }

  /** Lines 63-73 for one coefficient: `'0.0'` when it is `null` or `undefined`, else `safePercent(value * 100)`. */
  function Card(v: JsValue): real {
    if !IsNullish(v) then Percent(v) else 0.0
  }

  /** Lines 63-65. */
  function GoldCard(adv: Option<AdvancedCorrelations>): real {
    if adv.Some? && adv.value.earlyGlobal.Some? then Card(adv.value.earlyGlobal.value.corrGold14Win) else 0.0
  }

  /** Lines 67-69. */
  function XpCard(adv: Option<AdvancedCorrelations>): real {
    if adv.Some? && adv.value.earlyGlobal.Some? then Card(adv.value.earlyGlobal.value.corrXp14Win) else 0.0
  }

  /** Lines 71-73. */
  function KdaGlobalCard(adv: Option<AdvancedCorrelations>): (r: real)
    ensures adv.None? || adv.value.kdaGlobal.None? ==> r == 0.0
    ensures adv.Some? && adv.value.kdaGlobal.Some? ==> r == Percent(adv.value.kdaGlobal.value.corrKdaWin)
  {
    if adv.Some? && adv.value.kdaGlobal.Some? then Card(adv.value.kdaGlobal.value.corrKdaWin) else 0.0
  }

  /** Line 75: `advancedCorr?.kdaGlobal?.games || 0`. */
  function TotalGames(adv: Option<AdvancedCorrelations>): (r: JsValue)
    ensures Truthy(r) || r == Zero
    ensures adv.Some? && adv.value.kdaGlobal.Some? && Truthy(adv.value.kdaGlobal.value.games)
      ==> r == adv.value.kdaGlobal.value.games
    ensures !(adv.Some? && adv.value.kdaGlobal.Some? && Truthy(adv.value.kdaGlobal.value.games)) ==> r == Zero
  {
    if adv.Some? && adv.value.kdaGlobal.Some? then Or(adv.value.kdaGlobal.value.games, Zero) else Zero
  }

  /**
   * The `!= null` guard of the cards changes nothing: `null * 100` is 0 and
   * `undefined * 100` is NaN, both shown as `'0.0'`. So each card shows
   * exactly the value of the matching chart bar.
   */
  lemma CardsMatchChart(adv: Option<AdvancedCorrelations>)
    ensures forall v :: Card(v) == Percent(v)
    ensures CorrelationData(adv) != [] ==>
      CorrelationData(adv)[0].value == GoldCard(adv) && CorrelationData(adv)[1].value == XpCard(adv)
    ensures CorrelationData(adv) == [] ==> GoldCard(adv) == 0.0 && XpCard(adv) == 0.0
  {
    forall v ensures Card(v) == Percent(v) {
      PercentSpec(v);
    }
  }

  /**
   * The overview page and this page show the same gold and XP percentages for
   * the same correlation object, though the overview also checks `isNaN`.
   */
  lemma HomeAgrees(adv: Option<AdvancedCorrelations>)
    ensures Home.GoldCorr(adv) == GoldCard(adv)
    ensures Home.XpCorr(adv) == XpCard(adv)
  {
    if adv.Some? && adv.value.earlyGlobal.Some? {
      PercentSpec(adv.value.earlyGlobal.value.corrGold14Win);
      PercentSpec(adv.value.earlyGlobal.value.corrXp14Win);
    }
  }
}

=== FILE: text.dfy ===
/**
 * The string operations behind the search boxes and the role labels:
 * `toLowerCase`, `toUpperCase` and `includes`. Case mapping is modelled on the
 * ASCII letters only.
 */
module Text {

  function LowerChar(c: char): char {
    if 'A' <= c <= 'Z' then (c as int + 32) as char else c
  }

  function UpperChar(c: char): char {
    if 'a' <= c <= 'z' then (c as int - 32) as char else c
  }

  /** `s.toLowerCase()`. */
  function Lower(s: string): (r: string)
    ensures |r| == |s|
    ensures forall i :: 0 <= i < |s| ==> r[i] == LowerChar(s[i])
    decreases |s|
  {
    if |s| == 0 then "" else [LowerChar(s[0])] + Lower(s[1..])
  }

  /** `s.toUpperCase()`. */
  function Upper(s: string): (r: string)
    ensures |r| == |s|
    ensures forall i :: 0 <= i < |s| ==> r[i] == UpperChar(s[i])
    decreases |s|
  {
    if |s| == 0 then "" else [UpperChar(s[0])] + Upper(s[1..])
  }

  /** `needle` occurs in `hay` starting at position `i`. */
  ghost predicate OccursAt(needle: string, hay: string, i: int) {
    0 <= i && i + |needle| <= |hay| && hay[i..i + |needle|] == needle
  }

  /** `hay.includes(needle)`, scanning left to right. */
  function Includes(hay: string, needle: string): bool
    decreases |hay|
  {
    if |needle| > |hay| then false
    else if hay[..|needle|] == needle then true
    else Includes(hay[1..], needle)
  }

  /** `Includes` holds exactly when the needle occurs somewhere in the haystack. */
  lemma {:induction false} IncludesSpec(hay: string, needle: string)
    ensures Includes(hay, needle) <==> exists i :: OccursAt(needle, hay, i)
    decreases |hay|
  {
    if |needle| > |hay| {
    } else if hay[..|needle|] == needle {
      assert OccursAt(needle, hay, 0);
    } else {
      IncludesSpec(hay[1..], needle);
      if Includes(hay[1..], needle) {
        var i :| OccursAt(needle, hay[1..], i);
        assert hay[1..][i..i + |needle|] == hay[i + 1..i + 1 + |needle|];
        assert OccursAt(needle, hay, i + 1);
      } else {
        forall i | OccursAt(needle, hay, i) ensures false {
          assert i != 0;
          assert hay[1..][i - 1..i - 1 + |needle|] == hay[i..i + |needle|];
          assert OccursAt(needle, hay[1..], i - 1);
        }
      }
    }
  }

  /** The search rule of the champion pages: the name, lower-cased, contains the lower-cased term. */
  predicate MatchesTerm(name: string, term: string) {
    Includes(Lower(name), Lower(term))
  }

  /** An empty search term matches every name. */
  lemma EmptyTermMatches(name: string)
    ensures MatchesTerm(name, "")
  {
    assert Lower("") == "";
    assert Lower(name)[..0] == "";
  }

  /** The search ignores case: upper-casing the name or the term changes nothing. */
  lemma {:induction false} MatchesTermIgnoresCase(name: string, term: string)
    ensures MatchesTerm(Upper(name), term) == MatchesTerm(name, term)
    ensures MatchesTerm(name, Upper(term)) == MatchesTerm(name, term)
  {
    LowerOfUpper(name);
    LowerOfUpper(term);
  }

  lemma LowerOfUpper(s: string)
    ensures Lower(Upper(s)) == Lower(s)
  {
  }

  /** Upper-casing yields the empty string exactly when given it. */
  lemma UpperKeepsEmptiness(s: string)
    ensures Upper(s) == "" <==> s == ""
  {
  }
}

=== FILE: theme.dfy ===
/**
 * The light/dark theme provider: the initial theme read from `localStorage`,
 * the effect that publishes the theme to the document and to storage, and the
 * toggle. The theme is held as the string the source holds; `Mode` is the
 * two-state view of it.
 */
module Theme {
  import opened Js

  /** The two values the provider accepts. */
  predicate IsThemeName(s: string) {
    s == "light" || s == "dark"
  }

  /**
   * Lines 14-24: with no `window`, `'dark'`; otherwise the stored `'theme'` item
   * when it is `'light'` or `'dark'`, and `'dark'` for anything else (including
   * no item, which `getItem` returns as `null`).
   */
  function InitialTheme(hasWindow: bool, stored: Option<string>): (r: string)
    ensures IsThemeName(r)
    ensures hasWindow && stored.Some? && IsThemeName(stored.value) ==> r == stored.value
    ensures !(hasWindow && stored.Some? && IsThemeName(stored.value)) ==> r == "dark"
  {
    if !hasWindow then "dark"
    else if stored == Some("light") || stored == Some("dark") then stored.value
    else "dark"
  }

  /** Line 34: `prev === 'light' ? 'dark' : 'light'`. */
  function ToggleTheme(prev: string): (r: string)
    ensures IsThemeName(r)
    ensures IsThemeName(prev) ==> r != prev
  {
    if prev == "light" then "dark" else "light"
  }

  /** Toggling twice is the identity on the two theme names. */
  lemma ToggleTwice(s: string)
    requires IsThemeName(s)
    ensures ToggleTheme(ToggleTheme(s)) == s
  {
  }

  /** The theme after `n` toggles from `start`. */
  function ToggleN(start: string, n: nat): string
    decreases n
  {
    if n == 0 then start else ToggleTheme(ToggleN(start, n - 1))
  }

  /** After any number of toggles the theme is a theme name, and it is the start exactly after an even number. */
  lemma {:induction false} ToggleNParity(start: string, n: nat)
    requires IsThemeName(start)
    ensures IsThemeName(ToggleN(start, n))
    ensures ToggleN(start, n) == if n % 2 == 0 then start else ToggleTheme(start)
    decreases n
  {
    if n != 0 {
      ToggleNParity(start, n - 1);
      ToggleTwice(start);
    }
  }

  /** The two-state view. */
  datatype Mode = Light | Dark {
    function Name(): string {
      match this
      case Light => "light"
      case Dark => "dark"
    }

    function Toggle(): Mode {
      match this
      case Light => Dark
      case Dark => Light
    }
  }

  /** The theme names are exactly the names of the two modes, and the toggle on names is the toggle on modes. */
  lemma ModeAbstraction(s: string, m: Mode)
    ensures IsThemeName(m.Name())
    ensures IsThemeName(s) ==> exists m': Mode :: m'.Name() == s
    ensures ToggleTheme(m.Name()) == m.Toggle().Name()
  {
    if s == "light" {
      assert Light.Name() == s;
    } else if s == "dark" {
      assert Dark.Name() == s;
    }
  }

  /** What the provider writes to: the `data-theme` attribute and `localStorage` (present only with a `window`). */
  datatype Browser = Browser(hasWindow: bool, storage: map<string, string>, dataTheme: Option<string>)

  /** Lines 26-31: publish the theme to the document, and to storage when there is a `window`. */
  function Publish(b: Browser, theme: string): (r: Browser)
    ensures r.hasWindow == b.hasWindow && r.dataTheme == Some(theme)
    ensures b.hasWindow ==> r.storage == b.storage["theme" := theme]
    ensures !b.hasWindow ==> r.storage == b.storage
  {
    var b1 := b.(dataTheme := Some(theme));
    if b.hasWindow then b1.(storage := b.storage["theme" := theme]) else b1
  }

  /** `localStorage.getItem('theme')`. */
  function Stored(b: Browser): Option<string> {
    if "theme" in b.storage then Some(b.storage["theme"]) else None
  }

  /** The provider's state: the theme, and the browser after the effect has run for it. */
  datatype Session = Session(theme: string, browser: Browser)

  /** Mounting: the initial theme, then the effect. */
  function Mount(b: Browser): Session {
    var t := InitialTheme(b.hasWindow, Stored(b));
    Session(t, Publish(b, t))
  }

  /** A click on the toggle, then the effect for the new theme. */
  function Click(s: Session): Session {
    var t := ToggleTheme(s.theme);
    Session(t, Publish(s.browser, t))
  }

  /** Mounting and then clicking `n` times. */
  function Run(b: Browser, n: nat): Session
    decreases n
  {
    if n == 0 then Mount(b) else Click(Run(b, n - 1))
  }

  /** The effect has caught up: the document shows the theme, and storage holds it when there is a `window`. */
  ghost predicate Published(s: Session) {
    && s.browser.dataTheme == Some(s.theme)
    && (s.browser.hasWindow ==> Stored(s.browser) == Some(s.theme))
  }

  /**
   * Along any run the theme is a theme name, the effect has published it, and
   * it is the mounted theme toggled `n` times.
   */
  lemma {:induction false} RunInvariant(b: Browser, n: nat)
    ensures IsThemeName(Run(b, n).theme)
    ensures Published(Run(b, n))
    ensures Run(b, n).theme == ToggleN(Mount(b).theme, n)
    ensures Run(b, n).browser.hasWindow == b.hasWindow
    decreases n
  {
    if n != 0 {
      RunInvariant(b, n - 1);
    }
  }

  /** Reloading the page after any run mounts the same theme again, when there is a `window` to store it. */
  lemma ReloadRestoresTheme(b: Browser, n: nat)
    requires b.hasWindow
    ensures Mount(Run(b, n).browser).theme == Run(b, n).theme
  {
    RunInvariant(b, n);
  }
}
